=== FILE: README.md ===
# pak-wheels: a Dafny model of the marketplace's request logic

pak-wheels is a Next.js car marketplace backed by MongoDB: users and brands
sign up and log in, owners list cars for sale or for rent, renters book
rental cars, the two parties review each other after a rental, and private
sellers post used-car ads. This project models, in Dafny, the decision logic
of its API routes, its middleware and its schemas, and the pure helpers
embedded in its pages, and proves properties about them.

The store is an immutable `Db` value holding one sequence per collection
(users, brands, cars, rental requests, reviews, ads) and a counter for fresh
ids. Every route is a pure function from a store and a request body to a
`Reply`: the response (status, message, optional body) and the next store.
A failed check leaves the store as it was. Mongoose's `create` is modelled by
one function per schema (`Models.NewCar`, `Models.NewUser`, …). It applies
the schema's required fields, enums, bounds and defaults; a rejection there
becomes the route's 500 reply. The unique indexes on user email and phone
number and on brand email are checked when a record is inserted.

Library calls the model cannot see are parameters:

- the password hash and the password comparison (`hash`, `matches`);
- the session token: issuing it and the Set-Cookie text (`issue`), and verifying it (`verify`);
- JavaScript's date parsing, as a millisecond timestamp or `None` for NaN (`parse`);
- the browser's image decoding, as the decoded width and height;
- the logo upload's outcome.

Request fields that JavaScript would read as falsy are `None`. Numbers are
unbounded integers, and strings are sequences of characters with ASCII
lower-casing.

Modules, one per area of the program:

- `Common`: options, responses, JavaScript truthiness, `trim`, `toLowerCase`, `includes`, `filter` and `findOne`.
- `Models`: the six schemas and the store.
- `RentalRoutes`: creating a booking request and listing the rental cars.
- `ReviewRoutes`: submitting a review.
- `CarRoutes`: listing a car.
- `AdRoutes`: posting a used-car ad.
- `AccountRoutes`: user sign-up, brand sign-up and login.
- `Gates`: the edge middleware and its matcher, the admin gate, the admin-or-brand gate, and the admin-only user listing.
- `Dashboard`, `RentalsPage`, `UsedCarsPage`, `SignupPage`, `AdminPage`: the page logic (`AdminPage` also covers the shared table component).

## Model

| member | source | states |
|---|---|---|
| Models.ParseStatus | models/RentalRequest.ts:11-15 | only the five status names are accepted, each naming its own status |
| Models.ParseReviewType | models/Review.ts:10 | only "car" and "renter" are accepted as review types |
| Models.DefaultFalse | models/Car.ts:10-13 | a boolean path with default false is true exactly when true was given |
| Models.NewCar | models/Car.ts:3-16 | a car is created iff owner, title and location are given; the three flags default to false; optional price, daily price and description pass through |
| Models.NewUser | models/User.ts:3-16 | a user is created iff name, email, phone and password are non-empty; role defaults to "user"; profile picture and address are optional |
| Models.InsertUser | models/User.ts:5-6 | the insert succeeds iff no stored user has the email or the phone number, appends the user, and keeps both keys unique |
| Models.UserByEmail | middlewares/admin.ts:14 | `findOne` by email finds a stored user with that email, and finds none only when no user has it |
| Models.NewBrand | models/Brand.ts:4-15 | a brand is created iff name, email, password and logo are non-empty; isVerified defaults to false and cars to the empty list |
| Models.InsertBrand | models/Brand.ts:6 | the insert succeeds iff no stored brand has the email, and keeps brand emails unique |
| Models.NewRental | models/RentalRequest.ts:4-18 | a request is created iff the six required fields are given and any status given is one of the five; status defaults to pending |
| Models.SchemaAcceptsInvertedRange | models/RentalRequest.ts:8-9 | the schema accepts a request whose end precedes its start |
| Models.NewReview | models/Review.ts:3-11 | a review is created iff the required fields are given, the rating lies in 1..5 and the type is "car" or "renter"; car and comment are optional |
| Models.NewAd | models/Ad.ts:3-21 | an ad is created iff the seven required texts and the year are given and no image is empty; seller comments are optional |
| RentalRoutes.CreateRental | app/api/rentals/route.ts:12-67 | checks in order: fields (total 0 counts as missing), date range, car for rent, overlap with an approved booking of the car, renter; 201 iff all pass, adding exactly one pending request with the car's owner |
| RentalRoutes.OverlapQueryIsHalfOpen | app/api/rentals/route.ts:32-40 | for well-ordered ranges the three-way overlap query is the half-open test s < newEnd and e > newStart |
| RentalRoutes.ContiguousRangesDoNotConflict | app/api/rentals/route.ts:35-39 | a booking ending exactly when the new one starts does not conflict |
| RentalRoutes.InvertedBookingStillBlocks | app/api/rentals/route.ts:35-39 | a stored booking with an inverted range, which the schema admits, still matches the query though it overlaps nothing |
| RentalRoutes.CreateRentalKeepsRangesValid | app/api/rentals/route.ts:18-23 | if every stored request has start before end, so does the store after a creation |
| RentalRoutes.CreateRentalKeepsNoDoubleBooking | app/api/rentals/route.ts:31-61 | if no two approved requests for a car overlap, a creation keeps it so |
| RentalRoutes.AcceptedBookingAvoidsApproved | app/api/rentals/route.ts:31-44 | an accepted booking overlaps no approved booking of its car |
| RentalRoutes.OverlappingRequestRefused | app/api/rentals/route.ts:31-44 | a request overlapping an approved booking of the car is refused with 400, whether or not the renter exists |
| RentalRoutes.BookingScenario | app/api/rentals/route.ts:14-63 | with the car booked over days 10 to 15, a request over days 14 to 20 is refused and one over days 15 to 20 is accepted |
| RentalRoutes.RentalCars | app/api/rentals/route.ts:71-75 | a subsequence of the cars holding each car flagged for rent as often as the store does, and no other car |
| ReviewRoutes.RentalById | app/api/review/route.ts:21-24 | finds a stored request with the id, and none only when no request has it |
| ReviewRoutes.SubmitReview | app/api/review/route.ts:11-49 | checks in order: fields (rating 0 counts as missing), rating range, rental, the reviewer is the rental's renter for a car review and its owner for a renter review; 201 iff all pass and the schema accepts, adding exactly that review; otherwise 500 |
| ReviewRoutes.StoredReviewHasRightAuthor | app/api/review/route.ts:26-44 | a stored car review is by the rental's renter, and a renter review by its owner |
| ReviewRoutes.PendingRentalMayBeReviewed | app/api/review/route.ts:21-44 | the rental's status is not checked: a pending rental may be reviewed |
| ReviewRoutes.RatingEdges | app/api/review/route.ts:13-19 | a rating of 0 is reported as a missing field, and 6 as out of range |
| CarRoutes.NonZero | app/api/cars/route.ts:49-50 | a price of 0 is stored as absent, and any other price is kept |
| CarRoutes.CreateCar | app/api/cars/route.ts:27-62 | an absent title or location is a 500 (trim throws); blank fields or no images are a 400; an unknown owner is a 404; 201 iff the checks pass, storing trimmed texts, coerced flags and availability true |
| CarRoutes.ListedCar | app/api/cars/route.ts:44-55 | the stored car has the owner, the trimmed title, location and description (empty when absent), a zero price dropped, the images, availability true and the two flags true only when sent as true |
| CarRoutes.ListedCarTextsTrimmed | app/api/cars/route.ts:44-55 | a listed car's title and location carry no surrounding white space |
| CarRoutes.ValidationOrder | app/api/cars/route.ts:30-32 | with the location absent, a blank title gives 400 but any other title gives 500 |
| AdRoutes.PostAd | app/api/ads/route.ts:14-26 | a missing field, a year of 0 or no images gives 400; an empty image fails the schema, giving 500; 201 iff all are present and no image is empty, adding exactly that ad |
| AdRoutes.PostAdKeepsAdsWellFormed | app/api/ads/route.ts:17-22 | every stored ad keeps its required fields non-empty after a post |
| AccountRoutes.ViewOf | app/api/users/auth/signup/route.ts:63-69 | the reply carries id, name, email, phone and role, and no password |
| AccountRoutes.DuplicateUser | app/api/users/auth/signup/route.ts:44 | the lookup finds a user whose email is the lower-cased input or whose phone is the raw input, and none only when no such user exists |
| AccountRoutes.ExistingFieldAsWrittenMisnames | app/api/users/auth/signup/route.ts:47 | as written, a duplicate email typed with a capital is reported as a duplicate phone number |
| AccountRoutes.ExistingFieldNamesTheMatch | app/api/users/auth/signup/route.ts:44-47 | the corrected message names the email iff the email matched, and otherwise a phone number that matched |
| AccountRoutes.UserSignup | app/api/users/auth/signup/route.ts:33-75 | a blank field gives 400; a duplicate gives 409, whose message names the email only when the email as typed equals the matched user's; 201 iff neither and the unique indexes accept, storing trimmed name and phone, the trimmed lower-cased email and the hash, and replying with the view |
| AccountRoutes.UserSignupCorrected | app/api/users/auth/signup/route.ts:44-47 | corrected route: the same status and store as the route; a 409 names the email exactly when the matched user holds the lower-cased email, and otherwise the phone number that matched |
| AccountRoutes.UserSignupMisnamesEmail | app/api/users/auth/signup/route.ts:44-47 | with "ali@mail.com" stored, signing up as "Ali@mail.com" with another phone gets "Existing phone number." from the route and "Existing email." from the corrected one |
| AccountRoutes.StoreUser | app/api/users/auth/signup/route.ts:51-60 | a checked body is stored iff its hash is non-empty and the normalised email and the trimmed phone are free in the unique indexes; otherwise 500 with the store unchanged |
| AccountRoutes.CreateUser | app/api/users/auth/signup/route.ts:55-75 | a rejected document leaves the store as it was and replies 500 |
| AccountRoutes.UserSignupKeepsInvariants | app/api/users/auth/signup/route.ts:55-60 | sign-up keeps email and phone unique and every stored email lower case and trimmed |
| AccountRoutes.PaddedDuplicateEmailIsServerError | app/api/users/auth/signup/route.ts:44-75 | an existing email typed with surrounding spaces escapes the 409 check and fails at the unique index with 500 |
| AccountRoutes.BrandSignup | app/api/brands/auth/signup/route.ts:33-77 | a blank field gives 400; a brand with the lower-cased email gives 409 "Existing email."; 201 iff neither and the index accepts, storing trimmed texts and the hash |
| AccountRoutes.StoreBrand | app/api/brands/auth/signup/route.ts:51-60 | a checked body is stored iff its hash is non-empty and the normalised email is free in the unique index; otherwise 500 with the store unchanged |
| AccountRoutes.CreateBrand | app/api/brands/auth/signup/route.ts:55-77 | a rejected document leaves the store as it was and replies 500 |
| AccountRoutes.BrandSignupKeepsEmailsUnique | app/api/brands/auth/signup/route.ts:44-60 | brand sign-up keeps brand emails unique |
| AccountRoutes.Login | app/api/users/auth/login/route.ts:37-90 | in order: an existing cookie, blank fields, an unknown email (no lower-casing), a password mismatch; otherwise 200 with the view and the session cookie |
| AccountRoutes.SignupThenLogin | app/api/users/auth/login/route.ts:56-90 | after a sign-up, logging in with the stored form of the email and the same password succeeds with the same view |
| AccountRoutes.CapitalisedEmailIsUnknown | app/api/users/auth/login/route.ts:56-60 | with stored emails lower case, an email typed with a capital is an unknown address |
| Gates.Middleware | middleware.ts:13-38 | the auth prefixes pass unchecked; otherwise no token gives 401 "Authentication required", a token that fails gives 401 "Invalid or expired token", and a good one passes with its email |
| Gates.Edge | middleware.ts:41-43 | unmatched paths pass untouched; only matched paths outside the auth prefixes can be refused |
| Gates.UngatedRoutes | middleware.ts:41-43 | rental, review, car and ad paths pass the edge whatever token they carry |
| Gates.AuthPrefixIsPlain | middleware.ts:13-19 | "/api/users/authx" passes without a token |
| Gates.GatedPathNeedsToken | middleware.ts:22-38 | a matched path outside the auth prefixes passes iff its token verifies, carrying that token's email |
| Gates.AdminGate | middlewares/admin.ts:10-21 | allows iff the header is present and names a user whose role is admin; every refusal is 401 "User not found or unauthorized." |
| Gates.AdminGateMeansAdmin | middlewares/admin.ts:10-21 | with unique emails, the gate allows exactly the requests of some admin user |
| Gates.BrandById | middlewares/adminOrBrand.ts:21-23 | finds a stored brand with the id, and none only when no brand has it |
| Gates.AdminOrBrandGate | middlewares/adminOrBrand.ts:14-36 | in order: no header gives 401, an unknown brand 404 "Brand not found.", a requester neither the brand nor an admin 401 "Not authorized."; allows otherwise |
| Gates.AdminOrBrandWho | middlewares/adminOrBrand.ts:26-36 | the brand itself and any admin are allowed on an existing brand; anyone else is refused |
| Gates.Listings | app/api/users/route.ts:35-41 | as written: lists the non-admin users without password and timestamps; each listed user still carries its role |
| Gates.ListingsCorrected | app/api/users/route.ts:40-41 | corrected: the same users in the same order, with every field but the role kept and no role |
| Gates.ListingKeepsRole | app/api/users/route.ts:35-44 | a non-admin user is listed as written with its role, and without it once corrected |
| Gates.UsersGet | app/api/users/route.ts:28-44 | a refusal of the admin gate is returned unchanged; otherwise 200 with the listing |
| Gates.ListingsAppend | app/api/users/route.ts:38 | the listing keeps store order: a user appended to the store is listed last, if at all |
| Dashboard.Merge | app/dashboard/page.tsx:78 | each field present in the patch overrides the section's |
| Dashboard.UpdateSection | app/dashboard/page.tsx:75-80 | the named section is merged with the patch and the other three are unchanged |
| Dashboard.EmptyPatchIsIdentity | app/dashboard/page.tsx:75-80 | an empty patch changes nothing |
| Dashboard.FetchStart | app/dashboard/page.tsx:118 | a fetch starts by setting loading and clearing the error, keeping the data |
| Dashboard.FetchData | app/dashboard/page.tsx:112-132 | a success stores the extracted list or the empty list; a failure stores the message and keeps the old data; loading ends either way; other sections are unchanged |
| Dashboard.Render | app/dashboard/page.tsx:168-206 | a spinner while loading, then a non-empty error, then the empty note, then the content |
| Dashboard.FetchThenRender | app/dashboard/page.tsx:112-206 | after a fetch the section shows the fetched list, the empty note, or the failure message, never a spinner |
| Dashboard.OwnerActions | app/dashboard/page.tsx:303-327 | the owner gets buttons only for pending and approved requests |
| Dashboard.RenterActions | app/dashboard/page.tsx:374-381 | the renter gets a button only for pending requests |
| Dashboard.ActionRequest | app/dashboard/page.tsx:134-136 | the update goes to the request's endpoint, with a status text the schema reads back as the chosen status |
| Dashboard.ButtonsSendLegalStatus | app/dashboard/page.tsx:134-136 | every offered button sends a status the schema accepts, and asks for a transition of the lifecycle |
| Dashboard.ActionsAreLegalEdges | app/dashboard/page.tsx:303-381 | the buttons are exactly the lifecycle's transitions: approve, reject or cancel a pending request, complete an approved one |
| Dashboard.Capitalise | app/dashboard/page.tsx:299 | the first character is upper-cased and the rest kept |
| Dashboard.StatusLabelRoundTrip | app/dashboard/page.tsx:299 | lower-casing a status label gives the status name back, and distinct statuses have distinct labels |
| Dashboard.ToggleRequest | app/dashboard/page.tsx:145-152 | the toggle sends the negation of the current availability |
| Dashboard.ToggleTwice | app/dashboard/page.tsx:145-152 | toggling twice asks for the original value at the same endpoint |
| RentalsPage.CeilDiv | app/rentals/page.tsx:80 | the rounded-up quotient q satisfies (q - 1) b < a <= q b |
| RentalsPage.TotalPrice | app/rentals/page.tsx:78-82 | 0 without a car or a date; NaN (None) for an unparseable date or no daily price; otherwise the started days times the daily price |
| RentalsPage.TotalCountsStartedDays | app/rentals/page.tsx:80-81 | a stay into its n-th day costs n daily prices |
| RentalsPage.DateChange | app/rentals/page.tsx:84-91 | a date change stores the text and recomputes the total from the updated dates |
| RentalsPage.DateChangeOrderIrrelevant | app/rentals/page.tsx:84-91 | filling in the two dates in either order gives the same form |
| RentalsPage.SubmitPayload | app/rentals/page.tsx:52-63 | nothing is sent without a user and a car; otherwise their ids and the form |
| RentalsPage.AfterSubmit | app/rentals/page.tsx:65-75 | a success deselects the car and empties the form; otherwise nothing changes |
| RentalsPage.SameDayIsReportedMissing | app/rentals/page.tsx:78-81 | the same date twice yields a total of 0, which the route reports as a missing field |
| RentalsPage.FilledFormPassesFieldChecks | app/rentals/page.tsx:57-63 | a form with ordered dates and a non-zero total passes the route's field and range checks |
| UsedCarsPage.KeepDigits | app/used-cars/page.tsx:19 | keeps the digits, in order, and nothing else |
| UsedCarsPage.ParseNumber | app/used-cars/page.tsx:19 | the digits of the text read in decimal: a text of digits alone reads as its value, and a text with no digit reads as 0 |
| UsedCarsPage.KeepDigitsConcat | app/used-cars/page.tsx:19 | keeping the digits distributes over concatenation |
| UsedCarsPage.DigitsValueConcat | app/used-cars/page.tsx:19 | reading two digit strings together shifts the first by the length of the second |
| UsedCarsPage.ParseNumberConcat | app/used-cars/page.tsx:19 | the number read from a concatenation is the first part's shifted by the second's digit count plus the second's |
| UsedCarsPage.ParseNumberOfDigits | app/used-cars/page.tsx:19 | a text of digits alone reads as its value |
| UsedCarsPage.ParseNumberExamples | app/used-cars/page.tsx:19 | "1.5" reads as 15 and the empty text as 0 |
| UsedCarsPage.DecimalText | app/used-cars/page.tsx:60 | the decimal text of n is all digits and reads back as n |
| UsedCarsPage.ParseInt | app/used-cars/page.tsx:60 | for decimal text, parseInt yields NaN (None) exactly when no digit follows the optional white space and sign |
| UsedCarsPage.ParseIntDecimal | app/used-cars/page.tsx:60 | parseInt of a number's decimal text is that number |
| UsedCarsPage.FilteredCars | app/used-cars/page.tsx:59-61 | a subsequence of the cars holding each car that passes the city, year and name filters as often as the input does, and no other car |
| UsedCarsPage.NoFiltersKeepAll | app/used-cars/page.tsx:59-61 | with all filters empty every car is kept |
| UsedCarsPage.MileageFilterIgnored | app/used-cars/page.tsx:59-61 | the mileage filter has no effect |
| UsedCarsPage.YearFilterKeepsThatYear | app/used-cars/page.tsx:60 | a year typed as its decimal text keeps exactly that year's cars |
| UsedCarsPage.Insert | app/used-cars/page.tsx:63-69 | inserting into a sorted list keeps it sorted and adds exactly the element |
| UsedCarsPage.SortBy | app/used-cars/page.tsx:63-69 | the result is sorted by the key and a permutation of the input |
| UsedCarsPage.Shown | app/used-cars/page.tsx:63-69 | a permutation of the filtered cars, sorted by price, mileage or year when chosen, and in filter order for any other key |
| UsedCarsPage.ShownAreFiltered | app/used-cars/page.tsx:59-69 | a car is shown iff it is in the list and passes the filters |
| UsedCarsPage.NextImage | app/used-cars/page.tsx:73-75 | the next index stays within the four images |
| UsedCarsPage.PrevImage | app/used-cars/page.tsx:77-79 | the previous index stays within the four images |
| UsedCarsPage.CarouselRoundTrip | app/used-cars/page.tsx:71-79 | previous undoes next and next undoes previous; four steps return to the start |
| SignupPage.BlockedMeansRequiredEmpty | app/signup/page.tsx:110 | the submit guard holds iff some field the kind of account needs is empty |
| SignupPage.MissingFieldAsWrittenMarksHiddenPhone | app/signup/page.tsx:110-121 | as written, a brand form missing its password gets its phone number marked, a field brands do not need |
| SignupPage.MissingField | app/signup/page.tsx:110-121 | marks a field iff the guard holds: the first empty field the account needs, in the order name, email, phone, password, re-entry, logo |
| SignupPage.MissingFieldAgreement | app/signup/page.tsx:111-119 | the written and the corrected cascades pick the same field for every blocked user form, and for every blocked brand form whose phone is non-empty |
| SignupPage.MarkMarksOnlyThat | app/signup/page.tsx:111-119 | marking a field raises its flag and no other |
| SignupPage.SignupUrl | app/signup/page.tsx:144-145 | the sign-up request goes to "/api//users/auth/signup" or "/api//brands/auth/signup", with a doubled slash |
| SignupPage.PayloadOf | app/signup/page.tsx:133-134 | a user's body drops the logo and a brand's drops the phone number; the rest is the form |
| SignupPage.Submit | app/signup/page.tsx:105-145 | as written: a blocked form marks the field of the written cascade, the first empty field of all six; a password mismatch clears samePasswords; otherwise the body is sent; only the flags change |
| SignupPage.SubmitCorrected | app/signup/page.tsx:110-121 | corrected: sends exactly what the handler sends, and differs only in marking the first missing field the account needs |
| SignupPage.SentFormIsComplete | app/signup/page.tsx:110-128 | a sent form has every needed field and matching passwords |
| SignupPage.InputChange | app/signup/page.tsx:77-103 | typing sets that field's text and clears its mark and both duplicate flags; after a submission it rechecks the passwords; nothing else changes |
| SignupPage.MarkedFieldCanBeCleared | app/signup/page.tsx:84-88 | after the corrected submit, a marked field is always one the page lets the user type in, and typing clears it |
| SignupPage.BrandStuckAfterPhoneMark | app/signup/page.tsx:84-113 | as written, while the page stays on the brand form, a brand whose phone was marked keeps the mark, and the disabled button, whatever it types |
| SignupPage.BrandFormStuckAfterSubmit | app/signup/page.tsx:105-121 | as written, submitting a brand form holding only a name and an email sends nothing, marks the hidden phone, and typing in any input of the brand form leaves the button disabled |
| SignupPage.ServerRefusal | app/signup/page.tsx:152-156 | "Existing email." raises the email flag, "Existing phone number." the phone flag, and anything else neither |
| SignupPage.ConflictRaisesNamedFlag | app/signup/page.tsx:155-156 | a duplicate sign-up gets the route's 409, whose message names the email or the phone number; the page raises that flag and disables the button |
| SignupPage.LogoInput | app/signup/page.tsx:185-238 | a non-WebP type and a size other than 1080 by 1080 are refused with their messages; a logo is accepted only when both pass and the upload succeeds, storing its URL |
| SignupPage.WebpTestIsSubstring | app/signup/page.tsx:190 | the type test is a substring test |
| AdminPage.FilteredCars | app/admin/page.tsx:36 | a subsequence of the cars holding each car whose title or location mentions the term, ignoring case, as often as the input does, and no other car |
| AdminPage.EmptySearchKeepsAllCars | app/admin/page.tsx:36 | an empty term keeps every car |
| AdminPage.CarSearchIgnoresCase | app/admin/page.tsx:36 | the search gives the same cars for a term and its lower-case form |
| AdminPage.FilteredItems | app/components/Table.tsx:24 | a subsequence of the rows holding each row whose name or email mentions the term, ignoring case, as often as the input does, and no other row |
| AdminPage.EmptySearchKeepsAllItems | app/components/Table.tsx:24 | an empty term keeps every row |
| AdminPage.LongerTermKeepsFewer | app/components/Table.tsx:24 | a row kept for a term is kept for every prefix of it |
| AdminPage.RowCells | app/components/Table.tsx:50-77 | name, email, then the phone for users or the logo otherwise, a verify toggle for brands only, and a delete button carrying the row's id and kind |
| AdminPage.RowsFitColumns | app/admin/page.tsx:115-127 | rows have as many cells as their table has headers |
| AdminPage.EndpointsOfKinds | app/admin/page.tsx:76 | the three kinds delete through "/api/users/", "/api/brands/" and "/api/cars/" followed by the id |
| AdminPage.DeleteClick | app/admin/page.tsx:100-103 | a delete click remembers the target and opens the popup |
| AdminPage.YesOrNo | app/admin/page.tsx:91-98 | a request is sent iff the answer is yes, a target is set and its kind is Users, Brands or Cars; the popup closes in every case |
| AdminPage.ClickThenAnswer | app/admin/page.tsx:91-103 | clicking a row's delete and confirming deletes that row's item through its collection; declining sends nothing |
| Common.TrimEmptyIffAllSpace | app/api/users/auth/signup/route.ts:36 | a text is blank after trim iff it is all white space |
| Common.TrimLowerCommute | app/api/users/auth/signup/route.ts:57 | lower-casing then trimming equals trimming then lower-casing |
| Common.TrimStart | app/api/users/auth/signup/route.ts:36 | drops only white space from the front, and what is left does not start with white space |
| Common.TrimEnd | app/api/users/auth/signup/route.ts:36 | drops only white space from the back, and what is left does not end with white space |
| Common.Trim | app/api/users/auth/signup/route.ts:56-58 | the trimmed text is no longer than the input and neither starts nor ends with white space |
| Common.TrimIsMiddle | app/api/users/auth/signup/route.ts:56-58 | the trimmed text is a contiguous piece of the input, and everything dropped on either side is white space |
| Common.Lower | app/api/users/auth/signup/route.ts:57 | `toLowerCase` keeps the length and lower-cases each ASCII capital in place, leaving every other character as it is |
| Common.StartsWith | middleware.ts:16 | `startsWith` holds iff the prefix is no longer than the text and agrees with it character by character |
| Common.Contains | app/used-cars/page.tsx:60 | `includes` holds iff the text occurs at some position |
| Common.Filter | app/api/users/route.ts:38 | a subsequence of the input that holds each element passing the test as often as the input does, and no other element |
| Common.Find | middlewares/admin.ts:14 | `findOne` returns a stored element passing the test, and none only when no element passes |

## Left out

- Database connectivity, connection failures and Mongoose's cast errors on malformed ids. Ids are natural numbers, and only schema and unique-index rejections reach the 500 replies.
- The check-then-insert race between the overlap query and the creation in the rental route. It is a concurrency hazard, and each route is modelled as one sequential step.
- bcrypt, JWT signing and verification, and cookie serialisation. They are parameters with no properties assumed beyond those a lemma states.
- The 500 replies of login and of the two gates. They come only from library or database faults.
- JavaScript `Date` parsing and floating point. Dates are integer timestamps and prices are integers. `Math.ceil` on a quotient is the exact rounded-up integer quotient.
- The sign-up page's switch between the user and the brand form (app/signup/page.tsx:257). The model keeps one kind of account per page state. It also leaves out the submit handler deleting the logo or the phone number from the form state itself (lines 133-134): after a refused send and a switch back, that field reads as empty. Switching to the user form, typing a phone number and switching back is also the only way out of the phone mark that `SignupPage.BrandStuckAfterPhoneMark` describes.
- The version key `__v` that a serialised document carries, in `Gates.Listings` and `Gates.ListingsCorrected`.
- Common.Lower: Unicode case mapping is not modelled. Here `toLowerCase` and `toUpperCase` act on ASCII letters only.
- UsedCarsPage.ParseInt: text beginning "0x" or "0X" after the sign is read as decimal 0 here, while `parseInt` reads it in base 16. The year input has the number type, so it never produces such text.
- UsedCarsPage.ParseNumber: a digit string longer than about fifteen digits reads exactly here. JavaScript would lose precision, because it reads the number as a double.
- UsedCarsPage.Shown: the order of cars with equal keys is not stated. The insertion sort modelled is stable, as the sort of the language is.
- How the middleware's x-user-email reaches the handler gates. This is framework behaviour, so the email is an input to the gates.
- The listings GET /api/cars and GET /api/ads. They return the whole collection and decide nothing.
- Routes whose source is not part of this model: rental status update and deletion, the review listings, availability update, "my cars" listings, the logo upload endpoint, and the deletion routes the admin page calls. Only the requests the pages send to them are modelled.
- Presentation: layout, toasts, navigation after sign-up, and the fetch-on-mount effects. Also left out are the used-cars page resetting the carousel to the first image when a car is selected, and the sign-up page redirecting signed-in users.
- Browser image decoding. The decoded size, or its failure, is an input to `SignupPage.LogoInput`.

## Findings

| source | as written | input that shows it | evidently intended | confidence | as-written member | corrected member |
|---|---|---|---|---|---|---|
| app/signup/page.tsx:113 | the missing-field cascade tests the phone number for both kinds of account, though the guard on line 110 and the form only ask it of users | a brand form with name "Motors", email "m@x.pk" and nothing else: the phone is marked, the brand form has no phone input to clear it, and the submit button stays disabled until the page is switched to the user form | test the phone number only for a user, so the brand's missing password (or logo) is marked | high; not executed | SignupPage.Submit | SignupPage.SubmitCorrected |
| app/api/users/auth/signup/route.ts:47 | the 409 message compares the email as typed with the stored one, while the lookup matched the lower-cased email | stored user "ali@mail.com" with phone "0300"; sign-up with "Ali@mail.com" and phone "0311" answers "Existing phone number." | compare the lower-cased email, so an email match is reported as an email | high; not executed | AccountRoutes.UserSignup | AccountRoutes.UserSignupCorrected |
| app/api/users/route.ts:41 | `delete user.role` is applied to hydrated documents, whose schema paths are not own properties, so nothing is removed and the serialised reply still carries each role | a store holding one user with role "user", read with an admin's header: the listing's entry carries role "user" | list the users without their role, as the step's own comment says | medium; not executed | Gates.Listings | Gates.ListingsCorrected |

=== FILE: account_routes.dfy ===
/** Account routes: user signup (`POST /api/users/auth/signup`), brand
    signup (`POST /api/brands/auth/signup`) and user login
    (`POST /api/users/auth/login`).

    Password hashing, password comparison and the issuing of the session
    cookie (a signed token serialised into a `Set-Cookie` header) are
    parameters of the model: `hash`, `matches` and `issue`. */
module AccountRoutes {
  import opened Common
  import opened Models

  /** `!x?.trim()`: the field is absent or holds nothing but white space. */
  predicate Blank(o: Option<string>) {
    o.None? || Trim(o.value) == ""
  }

  /** What the signup and login routes give back about a user: never the
      password. */
  datatype UserView = UserView(id: Id, name: string, email: string, phoneNumber: string, role: string)

  function ViewOf(u: User): (v: UserView)
    ensures v.id == u.id && v.name == u.name && v.email == u.email
    ensures v.phoneNumber == u.phoneNumber && v.role == u.role
  {
    UserView(u.id, u.name, u.email, u.phoneNumber, u.role)
  }

  // ---------------------------------------------------------------------------
  // User signup

  datatype UserSignupBody = UserSignupBody(
    name: Option<string>, email: Option<string>, phoneNumber: Option<string>, password: Option<string>)

  predicate UserSignupBlank(b: UserSignupBody) {
    Blank(b.name) || Blank(b.email) || Blank(b.phoneNumber) || Blank(b.password)
  }

  /** The duplicate lookup: the first user whose email is the lower-cased
      email as typed, or whose phone number is the phone number as typed
      (neither is trimmed for the lookup). */
  function DuplicateUser(users: seq<User>, email: string, phone: string): (r: Option<User>)
    ensures r.Some? ==> r.value in users && (r.value.email == Lower(email) || r.value.phoneNumber == phone)
    ensures r.None? <==> forall k :: 0 <= k < |users| ==> users[k].email != Lower(email) && users[k].phoneNumber != phone
  {
    Find(users, (u: User) => u.email == Lower(email) || u.phoneNumber == phone)
  }

  /** Which field the 409 reply names, as the route decides it: it compares
      the email as typed with the stored one, which is lower case. */
  function ExistingFieldAsWritten(email: string, existing: User): string {
    if email == existing.email then "email" else "phone number"
  }

  /** An email typed with a capital letter that matched an existing user's
      email is reported as a duplicate phone number. */
  lemma ExistingFieldAsWrittenMisnames()
    ensures
      var existing := User(7, "Ali", "ali@mail.com", "0300", "h", None, None, "user");
      && DuplicateUser([existing], "Ali@mail.com", "0311") == Some(existing)
      && existing.phoneNumber != "0311"
      && ExistingFieldAsWritten("Ali@mail.com", existing) == "phone number"
  {
    var existing := User(7, "Ali", "ali@mail.com", "0300", "h", None, None, "user");
    assert Lower("Ali@mail.com") == "ali@mail.com";
  }

  /** Which field the 409 reply names: the email when the match was on the
      email the lookup used, the phone number otherwise. */
  function ExistingField(email: string, existing: User): string {
    if Lower(email) == existing.email then "email" else "phone number"
  }

  /** The corrected reply names a field the matched user really holds, and
      names the email exactly when that user holds the email. */
  lemma ExistingFieldNamesTheMatch(users: seq<User>, email: string, phone: string)
    requires DuplicateUser(users, email, phone).Some?
    ensures var u := DuplicateUser(users, email, phone).value;
      && (ExistingField(email, u) == "email" <==> u.email == Lower(email))
      && (ExistingField(email, u) == "phone number" ==> u.phoneNumber == phone)
  {
  }

  /** Every stored email is lower case. */
  ghost predicate EmailsLower(users: seq<User>) {
    forall k :: 0 <= k < |users| ==> Lower(users[k].email) == users[k].email
  }

  /** No stored email carries surrounding white space. */
  ghost predicate EmailsTrimmed(users: seq<User>) {
    forall k :: 0 <= k < |users| ==> Trim(users[k].email) == users[k].email
  }

  /** Signup succeeds: no field is blank, no user has the typed email
      (lower-cased) or phone, the hash is a non-empty string, and neither
      unique index holds the normalised email or phone already. */
  predicate UserSignupAccepted(db: Db, b: UserSignupBody, hash: string -> string) {
    && !UserSignupBlank(b)
    && DuplicateUser(db.users, b.email.value, b.phoneNumber.value).None?
    && hash(b.password.value) != ""
    && UserKeysFree(db.users, Trim(Lower(b.email.value)), Trim(b.phoneNumber.value))
  }

  /** The text of a 409 reply naming a taken field. */
  function ConflictMessage(field: string): (m: string)
    ensures field == "email" ==> m == "Existing email."
    ensures field == "phone number" ==> m == "Existing phone number."
  {
    "Existing " + field + "."
  }

  /** `POST /api/users/auth/signup`, as written: the 409 reply compares the
      email as typed with the matched user's. */
  function UserSignup(db: Db, b: UserSignupBody, hash: string -> string): (r: Reply<UserView>)
    ensures UserSignupBlank(b) ==> r == Refuse(db, 400, "Please fill in all the required fields.")
    ensures (!UserSignupBlank(b) && DuplicateUser(db.users, b.email.value, b.phoneNumber.value).Some?) ==>
      r == Refuse(db, 409, ConflictMessage(ExistingFieldAsWritten(b.email.value, DuplicateUser(db.users, b.email.value, b.phoneNumber.value).value)))
    ensures r.response.status == 409 <==>
      !UserSignupBlank(b) && DuplicateUser(db.users, b.email.value, b.phoneNumber.value).Some?
    ensures r.response.status == 201 <==> UserSignupAccepted(db, b, hash)
    ensures r.response.status != 201 ==> r.db == db && r.response.body.None?
    ensures r.response.status in {201, 400, 409, 500}
    ensures r.response.status == 201 ==> SignedUp(db, b, hash, r)
  {
    if UserSignupBlank(b) then Refuse(db, 400, "Please fill in all the required fields.")
    else
      match DuplicateUser(db.users, b.email.value, b.phoneNumber.value)
      case Some(existing) => Refuse(db, 409, ConflictMessage(ExistingFieldAsWritten(b.email.value, existing)))
      case None => StoreUser(db, b, hash)
  }

  /** The sign-up route with the 409 reply corrected: it differs from the
      route only in the field a conflict names, which is the email exactly
      when the matched user holds the lower-cased email. */
  function UserSignupCorrected(db: Db, b: UserSignupBody, hash: string -> string): (r: Reply<UserView>)
    ensures r.response.status == UserSignup(db, b, hash).response.status
    ensures r.db == UserSignup(db, b, hash).db
    ensures r.response.status != 409 ==> r == UserSignup(db, b, hash)
    ensures r.response.status == 409 ==>
      && var u := DuplicateUser(db.users, b.email.value, b.phoneNumber.value).value;
      && (r.response.message == "Existing email." <==> u.email == Lower(b.email.value))
      && (r.response.message != "Existing email." ==>
            r.response.message == "Existing phone number." && u.phoneNumber == b.phoneNumber.value)
  {
    if !UserSignupBlank(b) && DuplicateUser(db.users, b.email.value, b.phoneNumber.value).Some? then
      var u := DuplicateUser(db.users, b.email.value, b.phoneNumber.value).value;
      ExistingFieldNamesTheMatch(db.users, b.email.value, b.phoneNumber.value);
      Refuse(db, 409, ConflictMessage(ExistingField(b.email.value, u)))
    else UserSignup(db, b, hash)
  }

  /** A text that starts with a character other than white space is not
      blank. */
  lemma NotBlank(t: string)
    requires |t| > 0 && !IsSpace(t[0])
    ensures !Blank(Some(t))
  {
    TrimEmptyIffAllSpace(t);
  }

  lemma SampleBodyNotBlank()
    ensures !UserSignupBlank(UserSignupBody(Some("Sara"), Some("Ali@mail.com"), Some("0311"), Some("pw")))
  {
    NotBlank("Sara");
    NotBlank("Ali@mail.com");
    NotBlank("0311");
    NotBlank("pw");
  }

  /** On the capitalised duplicate email the route names the phone number,
      and the corrected reply names the email. */
  lemma UserSignupMisnamesEmail(hash: string -> string)
    ensures
      var existing := User(7, "Ali", "ali@mail.com", "0300", "h", None, None, "user");
      var db := Db([existing], [], [], [], [], [], 8);
      var b := UserSignupBody(Some("Sara"), Some("Ali@mail.com"), Some("0311"), Some("pw"));
      && UserSignup(db, b, hash) == Refuse(db, 409, "Existing phone number.")
      && UserSignupCorrected(db, b, hash) == Refuse(db, 409, "Existing email.")
  {
    var existing := User(7, "Ali", "ali@mail.com", "0300", "h", None, None, "user");
    var b := UserSignupBody(Some("Sara"), Some("Ali@mail.com"), Some("0311"), Some("pw"));
    var db := Db([existing], [], [], [], [], [], 8);
    ExistingFieldAsWrittenMisnames();
    assert Lower("Ali@mail.com") == "ali@mail.com";
    assert ExistingField("Ali@mail.com", existing) == "email";
    SampleBodyNotBlank();
    assert DuplicateUser(db.users, "Ali@mail.com", "0311") == Some(existing);
    assert UserSignup(db, b, hash) == Refuse(db, 409, ConflictMessage("phone number"));
  }

  /** The reply and store after a successful signup: exactly one user is
      appended, holding the trimmed name and phone, the lower-cased trimmed
      email, the hashed password and the default role. */
  ghost predicate SignedUp(db: Db, b: UserSignupBody, hash: string -> string, r: Reply<UserView>)
    requires !UserSignupBlank(b)
  {
    && r.response.message == "User created successfully"
    && |r.db.users| == |db.users| + 1
    && var u := r.db.users[|db.users|];
    && u.id == db.nextId
    && u.name == Trim(b.name.value) && u.email == Trim(Lower(b.email.value))
    && u.phoneNumber == Trim(b.phoneNumber.value) && u.password == hash(b.password.value)
    && u.profilePic.None? && u.address.None? && u.role == "user"
    && r.response.body == Some(ViewOf(u))
    && r.db == db.(users := db.users + [u], nextId := db.nextId + 1)
  }

  /** The part of the signup after the duplicate lookup found nothing. */
  function StoreUser(db: Db, b: UserSignupBody, hash: string -> string): (r: Reply<UserView>)
    requires !UserSignupBlank(b)
    ensures r.response.status == 201 <==>
      && hash(b.password.value) != ""
      && UserKeysFree(db.users, Trim(Lower(b.email.value)), Trim(b.phoneNumber.value))
    ensures r.response.status != 201 ==> r == Refuse(db, 500, "An error occurred during signup.")
    ensures r.response.status == 201 ==> SignedUp(db, b, hash, r)
  {
    NormalisedNonEmpty(b.email.value);
    var doc := UserDoc(Some(Trim(b.name.value)), Some(Trim(Lower(b.email.value))), Some(Trim(b.phoneNumber.value)),
                       Some(hash(b.password.value)), None, None, None);
    assert TruthyText(doc.name) && TruthyText(doc.email) && TruthyText(doc.phoneNumber);
    CreateUser(db, doc)
  }

  /** `User.create` followed by the insert: a schema or duplicate-key
      failure is the catch block's 500. */
  function CreateUser(db: Db, doc: UserDoc): (r: Reply<UserView>)
    ensures r.response.status == 201 <==>
      && NewUser(db.nextId, doc).Some?
      && UserKeysFree(db.users, doc.email.value, doc.phoneNumber.value)
    ensures r.response.status != 201 ==> r == Refuse(db, 500, "An error occurred during signup.")
    ensures r.response.status == 201 ==>
      && var u := NewUser(db.nextId, doc).value;
      && r.response == Response(201, "User created successfully", Some(ViewOf(u)))
      && r.db == db.(users := db.users + [u], nextId := db.nextId + 1)
  {
    match NewUser(db.nextId, doc)
    case None => Refuse(db, 500, "An error occurred during signup.")
    case Some(u) =>
      match InsertUser(db.users, u)
      case None => Refuse(db, 500, "An error occurred during signup.")
      case Some(users) =>
        Reply(Response(201, "User created successfully", Some(ViewOf(u))),
              db.(users := users, nextId := db.nextId + 1))
  }

  /** A non-blank email stays non-empty once lower-cased and trimmed. */
  lemma NormalisedNonEmpty(email: string)
    ensures Trim(email) != "" ==> Trim(Lower(email)) != ""
  {
    TrimLowerCommute(email);
  }

  /** A lower-cased, trimmed email is in normal form, and non-empty when the
      email is not blank. */
  lemma NonBlankNormalised(email: string)
    ensures Trim(email) != "" ==> Trim(Lower(email)) != ""
    ensures Lower(Trim(Lower(email))) == Trim(Lower(email))
    ensures Trim(Trim(Lower(email))) == Trim(Lower(email))
  {
    NormalisedNonEmpty(email);
    TrimLowerCommute(email);
    LowerIdempotent(Trim(email));
    TrimIdempotent(Lower(email));
  }

  /** User signup keeps both unique indexes and the normal form of the
      stored emails. */
  lemma UserSignupKeepsInvariants(db: Db, b: UserSignupBody, hash: string -> string)
    requires UserKeysUnique(db.users) && EmailsLower(db.users) && EmailsTrimmed(db.users)
    ensures UserKeysUnique(UserSignup(db, b, hash).db.users)
    ensures EmailsLower(UserSignup(db, b, hash).db.users) && EmailsTrimmed(UserSignup(db, b, hash).db.users)
  {
    var r := UserSignup(db, b, hash);
    if r.response.status == 201 {
      NonBlankNormalised(b.email.value);
      var u := r.db.users[|db.users|];
      assert r.db.users == db.users + [u];
      assert InsertUser(db.users, u).Some?;
      AppendKeepsEmailsNormal(db.users, u);
    }
  }

  /** Appending a user whose email is in normal form keeps every stored
      email in normal form. */
  lemma AppendKeepsEmailsNormal(users: seq<User>, u: User)
    requires EmailsLower(users) && EmailsTrimmed(users)
    requires Lower(u.email) == u.email && Trim(u.email) == u.email
    ensures EmailsLower(users + [u]) && EmailsTrimmed(users + [u])
  {
    forall k | 0 <= k < |users| + 1
      ensures Lower((users + [u])[k].email) == (users + [u])[k].email
      ensures Trim((users + [u])[k].email) == (users + [u])[k].email
    {
      if k < |users| {
        assert (users + [u])[k] == users[k];
      }
    }
  }

  /** An email typed with surrounding white space slips past the duplicate
      lookup and is then refused by the unique index: a 500 rather than a
      409, and nothing is stored. */
  lemma PaddedDuplicateEmailIsServerError(db: Db, b: UserSignupBody, hash: string -> string)
    requires !UserSignupBlank(b)
    requires DuplicateUser(db.users, b.email.value, b.phoneNumber.value).None?
    requires hash(b.password.value) != ""
    requires exists k :: 0 <= k < |db.users| && db.users[k].email == Trim(Lower(b.email.value))
    ensures UserSignup(db, b, hash) == Refuse(db, 500, "An error occurred during signup.")
  {
    NonBlankNormalised(b.email.value);
  }

  // ---------------------------------------------------------------------------
  // Brand signup

  datatype BrandSignupBody = BrandSignupBody(
    name: Option<string>, email: Option<string>, logo: Option<string>, password: Option<string>)

  /** What the brand signup route gives back: never the password. */
  datatype BrandView = BrandView(id: Id, name: string, email: string, logo: string, isVerified: bool, cars: seq<string>)

  predicate BrandSignupBlank(b: BrandSignupBody) {
    Blank(b.name) || Blank(b.email) || Blank(b.logo) || Blank(b.password)
  }

  /** Brand signup succeeds: no field is blank, no brand has the typed email
      lower-cased, the hash is non-empty, and no brand has the normalised
      email.  Only the email is compared: two brands may share a name. */
  predicate BrandSignupAccepted(db: Db, b: BrandSignupBody, hash: string -> string) {
    && !BrandSignupBlank(b)
    && BrandEmailFree(db.brands, Lower(b.email.value))
    && hash(b.password.value) != ""
    && BrandEmailFree(db.brands, Trim(Lower(b.email.value)))
  }

  /** `POST /api/brands/auth/signup`. */
  function BrandSignup(db: Db, b: BrandSignupBody, hash: string -> string): (r: Reply<BrandView>)
    ensures BrandSignupBlank(b) ==> r == Refuse(db, 400, "Please fill in all the required fields.")
    ensures (!BrandSignupBlank(b) && exists k :: 0 <= k < |db.brands| && db.brands[k].email == Lower(b.email.value)) ==>
      r == Refuse(db, 409, "Existing email.")
    ensures r.response.status == 201 <==> BrandSignupAccepted(db, b, hash)
    ensures r.response.status != 201 ==> r.db == db && r.response.body.None?
    ensures r.response.status in {201, 400, 409, 500}
    ensures r.response.status == 201 ==> BrandSignedUp(db, b, hash, r)
  {
    if BrandSignupBlank(b) then Refuse(db, 400, "Please fill in all the required fields.")
    else if Find(db.brands, (x: Brand) => x.email == Lower(b.email.value)).Some? then
      Refuse(db, 409, "Existing email.")
    else StoreBrand(db, b, hash)
  }

  /** The reply and store after a successful brand signup: exactly one brand
      is appended, unverified and with no cars, holding the trimmed name and
      logo, the lower-cased trimmed email and the hashed password. */
  ghost predicate BrandSignedUp(db: Db, b: BrandSignupBody, hash: string -> string, r: Reply<BrandView>)
    requires !BrandSignupBlank(b)
  {
    && r.response.message == "Brand created successfully"
    && |r.db.brands| == |db.brands| + 1
    && var br := r.db.brands[|db.brands|];
    && br.id == db.nextId
    && br.name == Trim(b.name.value) && br.email == Trim(Lower(b.email.value))
    && br.logo == Trim(b.logo.value) && br.password == hash(b.password.value)
    && !br.isVerified && br.cars == []
    && r.response.body == Some(BrandView(br.id, br.name, br.email, br.logo, false, []))
    && r.db == db.(brands := db.brands + [br], nextId := db.nextId + 1)
  }

  /** The part of the brand signup after the duplicate lookup found nothing. */
  function StoreBrand(db: Db, b: BrandSignupBody, hash: string -> string): (r: Reply<BrandView>)
    requires !BrandSignupBlank(b)
    ensures r.response.status == 201 <==>
      && hash(b.password.value) != ""
      && BrandEmailFree(db.brands, Trim(Lower(b.email.value)))
    ensures r.response.status != 201 ==> r == Refuse(db, 500, "An error occurred during signup.")
    ensures r.response.status == 201 ==> BrandSignedUp(db, b, hash, r)
  {
    NormalisedNonEmpty(b.email.value);
    var doc := BrandDoc(Some(Trim(b.name.value)), Some(Trim(Lower(b.email.value))), Some(hash(b.password.value)),
                        Some(Trim(b.logo.value)), None, None);
    assert TruthyText(doc.name) && TruthyText(doc.email) && TruthyText(doc.logo);
    CreateBrand(db, doc)
  }

  /** `Brand.create` followed by the insert: a schema or duplicate-key
      failure is the catch block's 500. */
  function CreateBrand(db: Db, doc: BrandDoc): (r: Reply<BrandView>)
    ensures r.response.status == 201 <==>
      && NewBrand(db.nextId, doc).Some?
      && BrandEmailFree(db.brands, doc.email.value)
    ensures r.response.status != 201 ==> r == Refuse(db, 500, "An error occurred during signup.")
    ensures r.response.status == 201 ==>
      && var br := NewBrand(db.nextId, doc).value;
      && r.response == Response(201, "Brand created successfully",
                                Some(BrandView(br.id, br.name, br.email, br.logo, br.isVerified, br.cars)))
      && r.db == db.(brands := db.brands + [br], nextId := db.nextId + 1)
  {
    match NewBrand(db.nextId, doc)
    case None => Refuse(db, 500, "An error occurred during signup.")
    case Some(br) =>
      match InsertBrand(db.brands, br)
      case None => Refuse(db, 500, "An error occurred during signup.")
      case Some(brands) =>
        Reply(Response(201, "Brand created successfully",
                       Some(BrandView(br.id, br.name, br.email, br.logo, br.isVerified, br.cars))),
              db.(brands := brands, nextId := db.nextId + 1))
  }

  /** Brand signup keeps the brands' unique email index. */
  lemma BrandSignupKeepsEmailsUnique(db: Db, b: BrandSignupBody, hash: string -> string)
    requires BrandEmailsUnique(db.brands)
    ensures BrandEmailsUnique(BrandSignup(db, b, hash).db.brands)
  {
    var r := BrandSignup(db, b, hash);
    if r.response.status == 201 {
      var br := r.db.brands[|db.brands|];
      assert InsertBrand(db.brands, br).Some?;
    }
  }

  // ---------------------------------------------------------------------------
  // Login

  datatype LoginBody = LoginBody(email: Option<string>, password: Option<string>)

  /** A successful login: the user, and the `Set-Cookie` value carrying the
      session token. */
  datatype Session = Session(user: UserView, setCookie: string)

  /** `POST /api/users/auth/login`.  `hasToken` says whether the request
      already carries a session cookie; `matches(password, hash)` is the
      password comparison and `issue(email)` the cookie for a session of
      the user with that email.  Login never changes the store. */
  function Login(db: Db, hasToken: bool, b: LoginBody, matches: (string, string) -> bool,
                 issue: string -> string): (r: Response<Session>)
    ensures hasToken ==> r == Response(400, "Already logged in.", None)
    ensures !hasToken && (Blank(b.email) || Blank(b.password)) ==>
      r == Response(400, "Please fill in all the required fields.", None)
    ensures (!hasToken && !Blank(b.email) && !Blank(b.password)
             && forall k :: 0 <= k < |db.users| ==> db.users[k].email != b.email.value) ==>
      r == Response(404, "Unknown email address.", None)
    ensures (!hasToken && !Blank(b.email) && !Blank(b.password) && UserByEmail(db.users, b.email.value).Some?
             && !matches(b.password.value, UserByEmail(db.users, b.email.value).value.password)) ==>
      r == Response(401, "Invalid credentials.", None)
    ensures r.status == 200 <==>
      && !hasToken && !Blank(b.email) && !Blank(b.password)
      && UserByEmail(db.users, b.email.value).Some?
      && matches(b.password.value, UserByEmail(db.users, b.email.value).value.password)
    ensures r.status == 200 ==>
      && r.message == "User logged in successfully"
      && r.body == Some(Session(ViewOf(UserByEmail(db.users, b.email.value).value), issue(b.email.value)))
      && r.body.value.user.email == b.email.value
  {
    if hasToken then Response(400, "Already logged in.", None)
    else if Blank(b.email) || Blank(b.password) then Response(400, "Please fill in all the required fields.", None)
    else
      match UserByEmail(db.users, b.email.value)
      case None => Response(404, "Unknown email address.", None)
      case Some(u) =>
        if !matches(b.password.value, u.password) then Response(401, "Invalid credentials.", None)
        else Response(200, "User logged in successfully", Some(Session(ViewOf(u), issue(u.email))))
  }

  /** Signing up and then logging in with the stored (normalised) email and
      the same password opens a session for the new user. */
  lemma SignupThenLogin(db: Db, b: UserSignupBody, hash: string -> string,
                        matches: (string, string) -> bool, issue: string -> string)
    requires UserSignup(db, b, hash).response.status == 201
    requires matches(b.password.value, hash(b.password.value))
    ensures var s := UserSignup(db, b, hash);
      var l := Login(s.db, false, LoginBody(Some(Trim(Lower(b.email.value))), b.password), matches, issue);
      && l.status == 200
      && l.body.value.user == s.response.body.value
  {
    var s := UserSignup(db, b, hash);
    var e := Trim(Lower(b.email.value));
    NormalisedNonEmpty(b.email.value);
    TrimIdempotent(Lower(b.email.value));
    assert SignedUp(db, b, hash, s);
    assert UserSignupAccepted(db, b, hash);
    LookupFindsAppended(db.users, s.db.users[|db.users|], e, Trim(b.phoneNumber.value));
  }

  /** A user appended to a collection where no one holds its email is the
      one the login lookup finds. */
  lemma LookupFindsAppended(users: seq<User>, u: User, e: string, phone: string)
    requires UserKeysFree(users, e, phone) && u.email == e
    ensures UserByEmail(users + [u], e) == Some(u)
  {
    var all := users + [u];
    forall k | 0 <= k < |users|
      ensures all[k].email != e
    {
      assert all[k] == users[k];
    }
    assert all[|users|] == u;
    var r := UserByEmail(all, e);
    var k :| 0 <= k < |all| && all[k] == r.value;
    assert k == |users|;
  }

  /** A string that lower-casing leaves unchanged has no capital letter. */
  lemma LowerHasNoCapital(e: string, i: nat)
    requires Lower(e) == e
    ensures i < |e| ==> !('A' <= e[i] <= 'Z')
  {
    if i < |e| {
      assert Lower(e)[i] == LowerChar(e[i]);
    }
  }

  /** When every stored email is in normal form, an email typed with a
      capital letter never finds its account: the lookup is exact. */
  lemma CapitalisedEmailIsUnknown(db: Db, b: LoginBody, matches: (string, string) -> bool,
                                  issue: string -> string, i: nat)
    requires EmailsLower(db.users)
    requires !Blank(b.email) && !Blank(b.password)
    requires i < |b.email.value| && 'A' <= b.email.value[i] <= 'Z'
    ensures Login(db, false, b, matches, issue) == Response(404, "Unknown email address.", None)
  {
    forall k | 0 <= k < |db.users|
      ensures db.users[k].email != b.email.value
    {
      LowerHasNoCapital(db.users[k].email, i);
    }
    assert UserByEmail(db.users, b.email.value).None?;
  }
}

=== FILE: ad_routes.dfy ===
/** Used-car ad creation (`POST /api/ads`).

    The route refuses a body with a falsy name, price, mileage, model year,
    city, seller name or seller phone, or with no images at all; a model
    year of 0 counts as missing.  Whatever passes goes to `UsedCar.create`,
    whose schema additionally requires every image to be a non-empty
    string; its refusal is answered by the catch block with a 500. */
module AdRoutes {
  import opened Common
  import opened Models

  datatype AdBody = AdBody(
    name: Option<string>, images: Option<seq<string>>, price: Option<string>, mileage: Option<string>,
    modelYear: Option<int>, city: Option<string>, sellerName: Option<string>,
    sellerPhone: Option<string>, sellerComments: Option<string>)

  /** The route's own validation line. */
  predicate AdFieldsPresent(b: AdBody) {
    && TruthyText(b.name) && b.images.Some? && |b.images.value| > 0
    && TruthyText(b.price) && TruthyText(b.mileage) && TruthyNumber(b.modelYear)
    && TruthyText(b.city) && TruthyText(b.sellerName) && TruthyText(b.sellerPhone)
  }

  /** A stored ad as the schema demands it: required texts non-empty and
      every image a non-empty string. */
  predicate AdWellFormed(a: Ad) {
    && a.name != "" && a.price != "" && a.mileage != "" && a.city != ""
    && a.sellerName != "" && a.sellerPhone != ""
    && forall k :: 0 <= k < |a.images| ==> a.images[k] != ""
  }

  predicate AdsWellFormed(ads: seq<Ad>) {
    forall k :: 0 <= k < |ads| ==> AdWellFormed(ads[k])
  }

  /** `POST /api/ads`. */
  function PostAd(db: Db, b: AdBody): (r: Reply<Ad>)
    ensures !AdFieldsPresent(b) ==> r == Refuse(db, 400, "Missing required fields.")
    ensures (AdFieldsPresent(b) && exists k :: 0 <= k < |b.images.value| && b.images.value[k] == "") ==>
      r == Refuse(db, 500, "Failed to create car ad.")
    ensures r.response.status == 201 <==>
      AdFieldsPresent(b) && forall k :: 0 <= k < |b.images.value| ==> b.images.value[k] != ""
    ensures r.response.status == 201 ==>
      && r.response.message == "Car ad created successfully."
      && r.response.body.Some?
      && var ad := r.response.body.value;
      && ad.id == db.nextId && ad.name == b.name.value && ad.images == b.images.value
      && ad.price == b.price.value && ad.mileage == b.mileage.value
      && ad.modelYear == b.modelYear.value && ad.modelYear != 0
      && ad.city == b.city.value && ad.sellerName == b.sellerName.value
      && ad.sellerPhone == b.sellerPhone.value && ad.sellerComments == b.sellerComments
      && |ad.images| > 0
      && r.db == db.(ads := db.ads + [ad], nextId := db.nextId + 1)
  {
    if !AdFieldsPresent(b) then Refuse(db, 400, "Missing required fields.")
    else
      var doc := AdDoc(b.name, b.images.value, b.price, b.mileage, b.modelYear, b.city,
                       b.sellerName, b.sellerPhone, b.sellerComments);
      match NewAd(db.nextId, doc)
      case None => Refuse(db, 500, "Failed to create car ad.")
      case Some(ad) =>
        Reply(Response(201, "Car ad created successfully.", Some(ad)),
              db.(ads := db.ads + [ad], nextId := db.nextId + 1))
  }

  /** Posting an ad keeps every stored ad well formed, whatever the body. */
  lemma PostAdKeepsAdsWellFormed(db: Db, b: AdBody)
    requires AdsWellFormed(db.ads)
    ensures AdsWellFormed(PostAd(db, b).db.ads)
  {
    var r := PostAd(db, b);
    if r.response.status == 201 {
      var ad := r.response.body.value;
      assert AdWellFormed(ad);
      assert r.db.ads == db.ads + [ad];
    }
  }

}

=== FILE: admin_page.dfy ===
/** The admin page and its tables: the search filters over users, brands
    and cars, the cells each row shows, and the confirm-then-delete flow. */
module AdminPage {
  import opened Common
  import opened Models

  // ---------------------------------------------------------------------------
  // Search

  /** Case-insensitive substring test, as `a.toLowerCase().includes(b.toLowerCase())`. */
  predicate Mentions(text: string, term: string) {
    Contains(Lower(text), Lower(term))
  }

  /** The empty term is mentioned by every text. */
  lemma EmptyTermMentioned(text: string)
    ensures Mentions(text, "")
  {
    ContainsEmpty(Lower(text));
  }

  predicate CarMatches(term: string, car: Car) {
    Mentions(car.title, term) || Mentions(car.location, term)
  }

  function CarMatcher(term: string): Car -> bool {
    (car: Car) => CarMatches(term, car)
  }

  /** `filteredCars`: the cars whose title or location mentions the term, in
      their order. */
  function FilteredCars(cars: seq<Car>, term: string): (r: seq<Car>)
    ensures IsSubsequence(r, cars)
    ensures forall k :: 0 <= k < |r| ==> r[k] in cars && CarMatches(term, r[k])
    ensures forall k :: 0 <= k < |cars| && CarMatches(term, cars[k]) ==> cars[k] in r
    ensures forall car :: multiset(r)[car] == (if CarMatches(term, car) then multiset(cars)[car] else 0)
  {
    Filter(cars, CarMatcher(term))
  }

  /** An empty search shows every car. */
  lemma EmptySearchKeepsAllCars(cars: seq<Car>)
    ensures FilteredCars(cars, "") == cars
  {
    forall k | 0 <= k < |cars| ensures CarMatcher("")(cars[k]) {
      EmptyTermMentioned(cars[k].title);
    }
    FilterKeepsAll(cars, CarMatcher(""));
  }

  /** The search ignores the case of the term. */
  lemma CarSearchIgnoresCase(cars: seq<Car>, term: string)
    ensures FilteredCars(cars, Lower(term)) == FilteredCars(cars, term)
  {
    LowerIdempotent(term);
    assert forall car: Car :: CarMatcher(Lower(term))(car) == CarMatcher(term)(car);
    FilterExtensional(cars, CarMatcher(Lower(term)), CarMatcher(term));
  }

  /** A row of the users' or the brands' table. */
  datatype Item = Item(id: string, name: string, email: string, phoneNumber: Option<string>,
                       logo: Option<string>, isVerified: bool)

  predicate ItemMatches(term: string, item: Item) {
    Mentions(item.name, term) || Mentions(item.email, term)
  }

  function ItemMatcher(term: string): Item -> bool {
    (item: Item) => ItemMatches(term, item)
  }

  /** `filteredItems`: the items whose name or email mentions the term. */
  function FilteredItems(items: seq<Item>, term: string): (r: seq<Item>)
    ensures IsSubsequence(r, items)
    ensures forall k :: 0 <= k < |r| ==> r[k] in items && ItemMatches(term, r[k])
    ensures forall k :: 0 <= k < |items| && ItemMatches(term, items[k]) ==> items[k] in r
    ensures forall item :: multiset(r)[item] == (if ItemMatches(term, item) then multiset(items)[item] else 0)
  {
    Filter(items, ItemMatcher(term))
  }

  /** An empty search shows every item. */
  lemma EmptySearchKeepsAllItems(items: seq<Item>)
    ensures FilteredItems(items, "") == items
  {
    forall k | 0 <= k < |items| ensures ItemMatcher("")(items[k]) {
      EmptyTermMentioned(items[k].name);
    }
    FilterKeepsAll(items, ItemMatcher(""));
  }

  /** Narrowing: whatever a longer term keeps, the search for any of its
      prefixes also keeps. */
  lemma {:induction false} LongerTermKeepsFewer(items: seq<Item>, term: string, more: string)
    ensures forall k :: 0 <= k < |FilteredItems(items, term + more)| ==>
      FilteredItems(items, term + more)[k] in FilteredItems(items, term)
  {
    var long := FilteredItems(items, term + more);
    forall k | 0 <= k < |long| ensures long[k] in FilteredItems(items, term) {
      var it := long[k];
      var j :| 0 <= j < |items| && items[j] == it;
      if Mentions(it.name, term + more) {
        MentionsPrefix(it.name, term, more);
      } else {
        MentionsPrefix(it.email, term, more);
      }
    }
  }

  /** A text that mentions `term + more` mentions `term`. */
  lemma MentionsPrefix(text: string, term: string, more: string)
    requires Mentions(text, term + more)
    ensures Mentions(text, term)
  {
    var s, t := Lower(text), Lower(term + more);
    var i :| OccursAt(s, t, i);
    assert Lower(term) == t[..|term|];
    assert s[i..i + |term|] == s[i..i + |t|][..|term|];
    assert OccursAt(s, Lower(term), i);
  }

  // ---------------------------------------------------------------------------
  // Rows

  datatype Cell = TextCell(text: string) | LogoCell(src: string) | VerifyToggle(verified: bool) | DeleteButton(target: Target)

  /** What a delete button hands to the page. */
  datatype Target = Target(id: string, kind: string)

  /** The cells of one row: name, email, then the phone number for "Users"
      and the logo otherwise, a verification toggle for "Brands" only, and
      the delete button. */
  function RowCells(item: Item, kind: string): (r: seq<Cell>)
    ensures |r| == (if kind == "Brands" then 5 else 4)
    ensures r[0] == TextCell(item.name) && r[1] == TextCell(item.email)
    ensures kind == "Users" ==> r[2] == TextCell(item.phoneNumber.GetOr(""))
    ensures kind != "Users" ==> r[2] == LogoCell(item.logo.GetOr(""))
    ensures kind == "Brands" ==> r[3] == VerifyToggle(item.isVerified)
    ensures r[|r| - 1] == DeleteButton(Target(item.id, kind))
  {
    var third := if kind == "Users" then TextCell(item.phoneNumber.GetOr("")) else LogoCell(item.logo.GetOr(""));
    var verify := if kind == "Brands" then [VerifyToggle(item.isVerified)] else [];
    [TextCell(item.name), TextCell(item.email), third] + verify + [DeleteButton(Target(item.id, kind))]
  }

  /** The page's two tables get as many cells per row as headers: four for
      users, five for brands. */
  lemma RowsFitColumns(item: Item)
    ensures |RowCells(item, "Users")| == |["Name", "Email", "Phone Number", "Actions"]|
    ensures |RowCells(item, "Brands")| == |["Name", "Email", "Logo", "Verify", "Actions"]|
  {
  }

  // ---------------------------------------------------------------------------
  // Deletion

  datatype AdminState = AdminState(showPopUp: bool, target: Option<Target>)

  /** The request `deleteItem` sends. */
  function DeleteEndpoint(t: Target): string {
    "/api/" + Lower(t.kind) + "/" + t.id
  }

  /** The three tables' kinds lead to the three collection routes. */
  lemma EndpointsOfKinds(id: string)
    ensures DeleteEndpoint(Target(id, "Users")) == "/api/users/" + id
    ensures DeleteEndpoint(Target(id, "Brands")) == "/api/brands/" + id
    ensures DeleteEndpoint(Target(id, "Cars")) == "/api/cars/" + id
  {
    assert Lower("Users") == "users";
    assert Lower("Brands") == "brands";
    assert Lower("Cars") == "cars";
  }

  predicate Deletable(kind: string) {
    kind == "Users" || kind == "Brands" || kind == "Cars"
  }

  /** `handleDeleteClick`: remember the target and ask for confirmation. */
  function DeleteClick(st: AdminState, t: Target): (r: AdminState)
    ensures r.showPopUp && r.target == Some(t)
  {
    AdminState(true, Some(t))
  }

  /** `handleYesOrNo`: the request sent, if any, and the next state.  The
      popup closes whatever the answer. */
  function YesOrNo(st: AdminState, yes: bool): (r: (AdminState, Option<string>))
    ensures !r.0.showPopUp && r.0.target == st.target
    ensures r.1.Some? <==> yes && st.target.Some? && Deletable(st.target.value.kind)
    ensures r.1.Some? ==> r.1.value == DeleteEndpoint(st.target.value)
  {
    var next := st.(showPopUp := false);
    if yes && st.target.Some? && Deletable(st.target.value.kind) then (next, Some(DeleteEndpoint(st.target.value)))
    else (next, None)
  }

  /** Clicking a row's delete button and confirming deletes that row's item
      through its collection's route; declining sends nothing. */
  lemma ClickThenAnswer(st: AdminState, item: Item, kind: string)
    requires kind == "Users" || kind == "Brands"
    ensures var clicked := DeleteClick(st, RowCells(item, kind)[|RowCells(item, kind)| - 1].target);
      && YesOrNo(clicked, true).1 == Some((if kind == "Users" then "/api/users/" else "/api/brands/") + item.id)
      && YesOrNo(clicked, false).1.None?
      && !YesOrNo(clicked, true).0.showPopUp
  {
    var cells := RowCells(item, kind);
    assert cells[|cells| - 1].target == Target(item.id, kind);
    EndpointsOfKinds(item.id);
  }
}

=== FILE: car_routes.dfy ===
/** Car listing creation (`POST /api/cars`).

    The validation line tests, left to right and stopping at the first
    falsy operand: the owner id, `title.trim()`, `location.trim()` and
    `images?.length`.  An absent title or location is not caught by that
    test: calling `trim` on it throws, and the catch block answers 500.
    The stored car has its texts trimmed, a zero price dropped, its flags
    coerced to booleans, and is always marked available. */
module CarRoutes {
  import opened Common
  import opened Models

  datatype CarBody = CarBody(
    ownerId: Option<Id>, title: Option<string>, description: Option<string>, location: Option<string>,
    price: Option<int>, pricePerDay: Option<int>, images: Option<seq<string>>,
    isForSale: Option<bool>, isForRent: Option<bool>)

  /** `x || undefined` on a number: 0 is dropped. */
  function NonZero(o: Option<int>): (r: Option<int>)
    ensures r.Some? <==> TruthyNumber(o)
    ensures r.Some? ==> r == o
  {
    if TruthyNumber(o) then o else None
  }

  /** The validation line reaches a verdict without throwing, and says "valid". */
  predicate CarFieldsValid(b: CarBody) {
    && b.ownerId.Some?
    && b.title.Some? && Trim(b.title.value) != ""
    && b.location.Some? && Trim(b.location.value) != ""
    && b.images.Some? && |b.images.value| > 0
  }

  /** The validation line throws: it reaches `trim` on an absent title or location. */
  predicate CarFieldsThrow(b: CarBody) {
    && b.ownerId.Some?
    && (b.title.None? || (Trim(b.title.value) != "" && b.location.None?))
  }

  /** `POST /api/cars`. */
  function CreateCar(db: Db, b: CarBody): (r: Reply<Car>)
    ensures CarFieldsThrow(b) ==> r == Refuse(db, 500, "An error occurred while listing the car.")
    ensures !CarFieldsThrow(b) && !CarFieldsValid(b) ==> r == Refuse(db, 400, "Please provide all required fields.")
    ensures (CarFieldsValid(b) && forall k :: 0 <= k < |db.users| ==> db.users[k].id != b.ownerId.value) ==>
      r == Refuse(db, 404, "Owner not found.")
    ensures r.response.status == 201 <==>
      CarFieldsValid(b) && exists k :: 0 <= k < |db.users| && db.users[k].id == b.ownerId.value
    ensures r.response.status == 201 ==>
      && r.response.message == "Car listed successfully"
      && r.response.body.Some?
      && var car := r.response.body.value;
      && car.id == db.nextId && car.ownerId == b.ownerId.value
      && car.title == Trim(b.title.value) && car.location == Trim(b.location.value)
      && car.description == Some(if b.description.Some? then Trim(b.description.value) else "")
      && car.price == NonZero(b.price) && car.pricePerDay == NonZero(b.pricePerDay)
      && car.images == b.images.value
      && car.availability
      && (car.isForSale <==> b.isForSale == Some(true))
      && (car.isForRent <==> b.isForRent == Some(true))
      && r.db == db.(cars := db.cars + [car], nextId := db.nextId + 1)
  {
    if b.ownerId.None? then Refuse(db, 400, "Please provide all required fields.")
    else if b.title.None? then Refuse(db, 500, "An error occurred while listing the car.")
    else if Trim(b.title.value) == "" then Refuse(db, 400, "Please provide all required fields.")
    else if b.location.None? then Refuse(db, 500, "An error occurred while listing the car.")
    else if Trim(b.location.value) == "" || b.images.None? || |b.images.value| == 0 then
      Refuse(db, 400, "Please provide all required fields.")
    else if Find(db.users, (u: User) => u.id == b.ownerId.value).None? then
      Refuse(db, 404, "Owner not found.")
    else
      var car := ListedCar(db.nextId, b);
      Reply(Response(201, "Car listed successfully", Some(car)),
            db.(cars := db.cars + [car], nextId := db.nextId + 1))
  }

  /** The document `Car.create` receives from a valid body, and the car the
      schema makes of it. */
  function ListedCar(id: Id, b: CarBody): (car: Car)
    requires CarFieldsValid(b)
    ensures car.id == id && car.ownerId == b.ownerId.value
    ensures car.title == Trim(b.title.value) && car.location == Trim(b.location.value)
    ensures car.description == Some(if b.description.Some? then Trim(b.description.value) else "")
    ensures car.price == NonZero(b.price) && car.pricePerDay == NonZero(b.pricePerDay)
    ensures car.images == b.images.value && car.availability
    ensures car.isForSale <==> b.isForSale == Some(true)
    ensures car.isForRent <==> b.isForRent == Some(true)
  {
    var doc := CarDoc(
      b.ownerId, Some(Trim(b.title.value)),
      Some(if b.description.Some? then Trim(b.description.value) else ""),
      Some(Trim(b.location.value)), NonZero(b.price), NonZero(b.pricePerDay), Some(true),
      b.images.value, Some(b.isForSale == Some(true)), Some(b.isForRent == Some(true)));
    NewCar(id, doc).value
  }

  /** A listed car's title and location are non-empty and carry no
      surrounding white space. */
  lemma ListedCarTextsTrimmed(db: Db, b: CarBody)
    requires CreateCar(db, b).response.status == 201
    ensures var car := CreateCar(db, b).response.body.value;
      && car.title != "" && !IsSpace(car.title[0]) && !IsSpace(car.title[|car.title| - 1])
      && car.location != "" && !IsSpace(car.location[0]) && !IsSpace(car.location[|car.location| - 1])
  {
  }

  /** The evaluation order of the validation line: a blank title is a 400
      even when the location is absent, while a non-blank title with an
      absent location throws. */
  lemma ValidationOrder(db: Db, b: CarBody)
    requires b.ownerId.Some? && b.title.Some? && b.location.None?
    ensures AllSpace(b.title.value) ==> CreateCar(db, b).response.status == 400
    ensures !AllSpace(b.title.value) ==> CreateCar(db, b).response.status == 500
  {
    TrimEmptyIffAllSpace(b.title.value);
  }
}

=== FILE: common.dfy ===
/** Shared vocabulary of the marketplace model: optional values, HTTP replies,
    JavaScript truthiness of request fields, the string helpers the routes and
    pages call (trim, ASCII lower-case, substring search, prefix test) and the
    list helpers (filter, subsequence, find-first) behind every search box and
    every `findOne`. */
module Common {

  datatype Option<+T> = None | Some(value: T) {
    /** The value, or `default` when absent. */
    function GetOr(default: T): T {
      match this
      case Some(v) => v
      case None => default
    }
  }

  /** An HTTP reply: the status code, the `message` field of the JSON body,
      and the record the body carries when there is one. */
  datatype Response<+T> = Response(status: int, message: string, body: Option<T>)

  // ---------------------------------------------------------------------------
  // JavaScript truthiness of request-body fields.  An absent field is `None`;
  // the empty string and the number 0 are present but falsy.

  predicate TruthyText(o: Option<string>) {
    o.Some? && o.value != ""
  }

  predicate TruthyNumber(o: Option<int>) {
    o.Some? && o.value != 0
  }

  // ---------------------------------------------------------------------------
  // Whitespace and `String.prototype.trim`

  /** The white-space and line-terminator characters `trim` removes: tab,
      the vertical tab and form feed, the byte-order mark, the space
      separators of Unicode, and line feed, carriage return and the line and
      paragraph separators. */
  predicate IsSpace(c: char) {
    || c == '\t' || c == '\U{0B}' || c == '\U{0C}' || c == '\U{FEFF}'
    || c == ' ' || c == '\U{A0}' || c == '\U{1680}' || '\U{2000}' <= c <= '\U{200A}'
    || c == '\U{202F}' || c == '\U{205F}' || c == '\U{3000}'
    || c == '\n' || c == '\r' || c == '\U{2028}' || c == '\U{2029}'
  }

  predicate AllSpace(s: string) {
    forall k :: 0 <= k < |s| ==> IsSpace(s[k])
  }

  /** Drops the leading white space: the result is the longest suffix of `s`
      that does not start with white space, and everything dropped is space. */
  function TrimStart(s: string): (r: string)
    ensures |r| <= |s| && r == s[|s| - |r|..]
    ensures AllSpace(s[..|s| - |r|])
    ensures |r| > 0 ==> !IsSpace(r[0])
    decreases |s|
  {
    if |s| > 0 && IsSpace(s[0]) then TrimStart(s[1..]) else s
  }

  /** Drops the trailing white space: the result is the longest prefix of `s`
      that does not end with white space, and everything dropped is space. */
  function TrimEnd(s: string): (r: string)
    ensures |r| <= |s| && r == s[..|r|]
    ensures AllSpace(s[|r|..])
    ensures |r| > 0 ==> !IsSpace(r[|r| - 1])
    decreases |s|
  {
    if |s| > 0 && IsSpace(s[|s| - 1]) then TrimEnd(s[..|s| - 1]) else s
  }

  /** `s.trim()`: the middle of `s` left once the white space at both ends
      is dropped (`TrimIsMiddle`).  It starts and ends with something other
      than white space. */
  function Trim(s: string): (r: string)
    ensures |r| <= |s|
    ensures |r| > 0 ==> !IsSpace(r[0]) && !IsSpace(r[|r| - 1])
  {
    TrimEndKeepsStart(TrimStart(s));
    TrimEnd(TrimStart(s))
  }

  /** `r` sits in `s` at offset `i` with only white space around it. */
  predicate SpaceAround(s: string, r: string, i: int) {
    0 <= i <= |s| - |r| && r == s[i..i + |r|] && AllSpace(s[..i]) && AllSpace(s[i + |r|..])
  }

  /** What `trim` drops on either side is white space, and what it keeps is
      a contiguous piece of the text. */
  lemma TrimIsMiddle(s: string)
    ensures exists i :: SpaceAround(s, Trim(s), i)
  {
    var a := TrimStart(s);
    var i := |s| - |a|;
    var r := TrimEnd(a);
    assert Trim(s) == r;
    assert r == s[i..i + |r|] by {
      assert a == s[i..] && r == a[..|r|];
    }
    assert AllSpace(s[i + |r|..]) by {
      assert s[i + |r|..] == a[|r|..];
    }
    assert SpaceAround(s, r, i);
  }

  /** `s.trim()` is empty exactly when `s` is all white space: this is what
      the routes' `!x?.trim()` tests decide. */
  lemma {:induction false} TrimEmptyIffAllSpace(s: string)
    ensures Trim(s) == "" <==> AllSpace(s)
  {
    var a := TrimStart(s);
    if Trim(s) == "" {
      assert AllSpace(a[0..]);
      assert a[0..] == a;
      assert s[..|s| - |a|] == s;
    } else {
      assert |a| > 0 && !IsSpace(a[0]);
      assert a[0] == s[|s| - |a|];
    }
  }

  /** Trimming the end of a string that does not start with white space
      leaves a string that does not start with white space either. */
  lemma TrimEndKeepsStart(s: string)
    requires |s| > 0 ==> !IsSpace(s[0])
    ensures |TrimEnd(s)| > 0 ==> !IsSpace(TrimEnd(s)[0])
  {
    if |TrimEnd(s)| > 0 {
      assert TrimEnd(s)[0] == s[0];
    }
  }

  /** Trimming twice is trimming once. */
  lemma TrimIdempotent(s: string)
    ensures Trim(Trim(s)) == Trim(s)
  {
    var t := Trim(s);
    assert TrimStart(t) == t;
    assert TrimEnd(t) == t;
  }

  // ---------------------------------------------------------------------------
  // ASCII `toLowerCase`

  function LowerChar(c: char): char {
    if 'A' <= c <= 'Z' then (c as int + 32) as char else c
  }

  function Lower(s: string): (r: string)
    ensures |r| == |s|
    ensures forall k :: 0 <= k < |s| ==> r[k] == LowerChar(s[k])
  {
    seq(|s|, k requires 0 <= k < |s| => LowerChar(s[k]))
  }

  /** Lower-casing never produces an upper-case letter, so it is idempotent. */
  lemma LowerIdempotent(s: string)
    ensures Lower(Lower(s)) == Lower(s)
  {
  }

  /** Lower-casing leaves white space where it was, so it commutes with trim:
      the signup routes' `email.toLowerCase().trim()` is `trim` then lower. */
  lemma {:induction false} TrimLowerCommute(s: string)
    ensures TrimStart(Lower(s)) == Lower(TrimStart(s))
    ensures TrimEnd(Lower(s)) == Lower(TrimEnd(s))
    ensures Trim(Lower(s)) == Lower(Trim(s))
  {
    TrimStartLower(s);
    TrimEndLower(s);
    TrimEndLower(TrimStart(s));
  }

  lemma SpaceUnderLower(c: char)
    ensures IsSpace(LowerChar(c)) <==> IsSpace(c)
  {
  }

  lemma {:induction false} TrimStartLower(s: string)
    ensures TrimStart(Lower(s)) == Lower(TrimStart(s))
    decreases |s|
  {
    if |s| > 0 {
      var l := Lower(s);
      assert l[0] == LowerChar(s[0]);
      SpaceUnderLower(s[0]);
      assert l[1..] == Lower(s[1..]);
      if IsSpace(s[0]) {
        calc {
          TrimStart(l);
          TrimStart(l[1..]);
          { TrimStartLower(s[1..]); }
          Lower(TrimStart(s[1..]));
        }
      }
    }
  }

  lemma {:induction false} TrimEndLower(s: string)
    ensures TrimEnd(Lower(s)) == Lower(TrimEnd(s))
    decreases |s|
  {
    if |s| > 0 {
      var l := Lower(s);
      assert l[|s| - 1] == LowerChar(s[|s| - 1]);
      SpaceUnderLower(s[|s| - 1]);
      assert l[..|s| - 1] == Lower(s[..|s| - 1]);
      if IsSpace(s[|s| - 1]) {
        calc {
          TrimEnd(l);
          TrimEnd(l[..|s| - 1]);
          { TrimEndLower(s[..|s| - 1]); }
          Lower(TrimEnd(s[..|s| - 1]));
        }
      }
    }
  }

  // ---------------------------------------------------------------------------
  // `startsWith` and `includes`

  /** `s.startsWith(p)`: `p` is no longer than `s` and agrees with it
      character by character. */
  function StartsWith(s: string, p: string): (b: bool)
    ensures b <==> |p| <= |s| && forall k :: 0 <= k < |p| ==> s[k] == p[k]
  {
    |p| <= |s| && s[..|p|] == p
  }

  /** `t` occurs in `s` at position `i`. */
  predicate OccursAt(s: string, t: string, i: int) {
    0 <= i && i + |t| <= |s| && s[i..i + |t|] == t
  }

  /** `s.includes(t)`, searched left to right. */
  function Contains(s: string, t: string): (b: bool)
    ensures b <==> exists i :: OccursAt(s, t, i)
    decreases |s|
  {
    if StartsWith(s, t) then
      assert OccursAt(s, t, 0);
      true
    else if |s| == 0 then
      assert forall i :: !OccursAt(s, t, i);
      false
    else
      OccurrenceShift(s, t);
      Contains(s[1..], t)
  }

  /** An occurrence of `t` in `s` not at position 0 is an occurrence in `s[1..]`, one place earlier. */
  lemma OccurrenceShift(s: string, t: string)
    requires |s| > 0 && !OccursAt(s, t, 0)
    ensures (exists i :: OccursAt(s[1..], t, i)) <==> (exists i :: OccursAt(s, t, i))
  {
    forall i | OccursAt(s[1..], t, i)
      ensures OccursAt(s, t, i + 1)
    {
      assert s[1..][i..i + |t|] == s[i + 1..i + 1 + |t|];
    }
    if exists i :: OccursAt(s, t, i) {
      var i :| OccursAt(s, t, i);
      assert i > 0;
      assert s[1..][i - 1..i - 1 + |t|] == s[i..i + |t|];
      assert OccursAt(s[1..], t, i - 1);
    }
  }


  /** Every string contains the empty string: an empty search term keeps all. */
  lemma ContainsEmpty(s: string)
    ensures Contains(s, "")
  {
    assert OccursAt(s, "", 0);
  }

  // ---------------------------------------------------------------------------
  // Lists: filter, subsequence, find-first

  /** `a` is obtained from `b` by deleting elements, keeping the order. */
  ghost predicate IsSubsequence<T>(a: seq<T>, b: seq<T>)
    decreases |b|
  {
    |a| == 0
    || (|b| > 0 && ((a[0] == b[0] && IsSubsequence(a[1..], b[1..])) || IsSubsequence(a, b[1..])))
  }

  /** `Array.prototype.filter`: the kept elements, in their original order. */
  function Filter<T>(xs: seq<T>, keep: T -> bool): (r: seq<T>)
    ensures |r| <= |xs|
    ensures forall k :: 0 <= k < |r| ==> r[k] in xs && keep(r[k])
    ensures forall k :: 0 <= k < |xs| && keep(xs[k]) ==> xs[k] in r
    ensures IsSubsequence(r, xs)
    ensures multiset(r) <= multiset(xs)
    ensures forall x | x in xs :: multiset(r)[x] == (if keep(x) then multiset(xs)[x] else 0)
    decreases |xs|
  {
    if |xs| == 0 then []
    else
      var rest := Filter(xs[1..], keep);
      FilterStepCounts(xs, rest, keep);
      FilterStepOrder(xs, rest, keep);
      if keep(xs[0]) then [xs[0]] + rest else rest
  }

  /** One step of `Filter` keeps membership and order: the head is in front
      if kept, and the rest is a subsequence of the tail. */
  lemma FilterStepOrder<T>(xs: seq<T>, rest: seq<T>, keep: T -> bool)
    requires |xs| > 0
    requires |rest| <= |xs[1..]|
    requires forall k :: 0 <= k < |rest| ==> rest[k] in xs[1..] && keep(rest[k])
    requires forall k :: 0 <= k < |xs[1..]| && keep(xs[1..][k]) ==> xs[1..][k] in rest
    requires IsSubsequence(rest, xs[1..])
    ensures var r := if keep(xs[0]) then [xs[0]] + rest else rest;
      && |r| <= |xs|
      && (forall k :: 0 <= k < |r| ==> r[k] in xs && keep(r[k]))
      && (forall k :: 0 <= k < |xs| && keep(xs[k]) ==> xs[k] in r)
      && IsSubsequence(r, xs)
  {
    var r := if keep(xs[0]) then [xs[0]] + rest else rest;
    forall k | 0 <= k < |xs| && keep(xs[k])
      ensures xs[k] in r
    {
      if k > 0 {
        assert xs[k] == xs[1..][k - 1];
      }
    }
    if keep(xs[0]) {
      assert r[1..] == rest;
    }
  }

  /** One step of `Filter` keeps the element counts: the head is counted
      once if kept and not at all otherwise. */
  lemma FilterStepCounts<T>(xs: seq<T>, rest: seq<T>, keep: T -> bool)
    requires |xs| > 0
    requires multiset(rest) <= multiset(xs[1..])
    requires forall x | x in xs[1..] :: multiset(rest)[x] == (if keep(x) then multiset(xs[1..])[x] else 0)
    ensures var r := if keep(xs[0]) then [xs[0]] + rest else rest;
      && multiset(r) <= multiset(xs)
      && forall x | x in xs :: multiset(r)[x] == (if keep(x) then multiset(xs)[x] else 0)
  {
    assert xs == [xs[0]] + xs[1..];
    assert multiset(xs) == multiset{xs[0]} + multiset(xs[1..]);
    assert multiset([xs[0]] + rest) == multiset{xs[0]} + multiset(rest);
    forall x | x in xs && x !in xs[1..]
      ensures multiset(rest)[x] == 0
    {
      assert multiset(xs[1..])[x] == 0;
    }
  }

  /** Filtering with predicates that agree everywhere gives the same list. */
  lemma {:induction false} FilterExtensional<T>(xs: seq<T>, p: T -> bool, q: T -> bool)
    requires forall x :: p(x) == q(x)
    ensures Filter(xs, p) == Filter(xs, q)
    decreases |xs|
  {
    if |xs| > 0 {
      FilterExtensional(xs[1..], p, q);
    }
  }

  /** A filter whose predicate holds everywhere keeps the whole list. */
  lemma {:induction false} FilterKeepsAll<T>(xs: seq<T>, keep: T -> bool)
    requires forall k :: 0 <= k < |xs| ==> keep(xs[k])
    ensures Filter(xs, keep) == xs
    decreases |xs|
  {
    if |xs| > 0 {
      FilterKeepsAll(xs[1..], keep);
      assert [xs[0]] + xs[1..] == xs;
    }
  }

  /** The index of the first element satisfying `p`: what a `findOne` returns
      when documents are scanned in their natural (insertion) order. */
  function FindFirst<T>(xs: seq<T>, p: T -> bool): (r: Option<nat>)
    ensures r.Some? ==> r.value < |xs| && p(xs[r.value])
    ensures r.Some? ==> forall k :: 0 <= k < r.value ==> !p(xs[k])
    ensures r.None? <==> forall k :: 0 <= k < |xs| ==> !p(xs[k])
    decreases |xs|
  {
    if |xs| == 0 then None
    else if p(xs[0]) then Some(0)
    else
      match FindFirst(xs[1..], p)
      case None => None
      case Some(i) => Some(i + 1)
  }

  /** The first element satisfying `p`, if any. */
  function Find<T>(xs: seq<T>, p: T -> bool): (r: Option<T>)
    ensures r.Some? ==> r.value in xs && p(r.value)
    ensures r.None? <==> forall k :: 0 <= k < |xs| ==> !p(xs[k])
  {
    match FindFirst(xs, p)
    case None => None
    case Some(i) => Some(xs[i])
  }
}

=== FILE: dashboard.dfy ===
/** The dashboard page: four independently loaded sections, the rule that
    decides what each section shows, the status actions offered on a rental
    request, its status label, and the availability toggle of a rental car.

    Each section holds a list of items of some type `T`; what the four
    lists contain does not matter to the logic modelled here. */
module Dashboard {
  import opened Common
  import opened Models

  datatype SectionName = MyRentalRequests | ReceivedRentalRequests | MyUsedCars | MyRentalCars

  /** The section's key, as it appears in the error message. */
  function SectionKey(n: SectionName): string {
    match n
    case MyRentalRequests => "myRentalRequests"
    case ReceivedRentalRequests => "receivedRentalRequests"
    case MyUsedCars => "myUsedCars"
    case MyRentalCars => "myRentalCars"
  }

  datatype SectionState<T> = SectionState(data: seq<T>, loading: bool, error: Option<string>)

  /** A partial section state: the fields present override the section's. */
  datatype Patch<T> = Patch(data: Option<seq<T>>, loading: Option<bool>, error: Option<Option<string>>)

  datatype Sections<T> = Sections(
    myRentalRequests: SectionState<T>, receivedRentalRequests: SectionState<T>,
    myUsedCars: SectionState<T>, myRentalCars: SectionState<T>)

  /** Every section starts loading, empty and without error. */
  function Initial<T>(): Sections<T> {
    var s := SectionState([], true, None);
    Sections(s, s, s, s)
  }

  function Get<T>(ss: Sections<T>, n: SectionName): SectionState<T> {
    match n
    case MyRentalRequests => ss.myRentalRequests
    case ReceivedRentalRequests => ss.receivedRentalRequests
    case MyUsedCars => ss.myUsedCars
    case MyRentalCars => ss.myRentalCars
  }

  /** `{ ...prev, ...updates }` on one section. */
  function Merge<T>(s: SectionState<T>, p: Patch<T>): (r: SectionState<T>)
    ensures r.data == (if p.data.Some? then p.data.value else s.data)
    ensures r.loading == (if p.loading.Some? then p.loading.value else s.loading)
    ensures r.error == (if p.error.Some? then p.error.value else s.error)
  {
    SectionState(p.data.GetOr(s.data), p.loading.GetOr(s.loading), p.error.GetOr(s.error))
  }

  /** `updateSection`: merge the patch into the named section and leave the
      other three as they were. */
  function UpdateSection<T>(ss: Sections<T>, n: SectionName, p: Patch<T>): (r: Sections<T>)
    ensures Get(r, n) == Merge(Get(ss, n), p)
    ensures forall m: SectionName :: m != n ==> Get(r, m) == Get(ss, m)
  {
    match n
    case MyRentalRequests => ss.(myRentalRequests := Merge(ss.myRentalRequests, p))
    case ReceivedRentalRequests => ss.(receivedRentalRequests := Merge(ss.receivedRentalRequests, p))
    case MyUsedCars => ss.(myUsedCars := Merge(ss.myUsedCars, p))
    case MyRentalCars => ss.(myRentalCars := Merge(ss.myRentalCars, p))
  }

  /** An empty patch changes nothing. */
  lemma EmptyPatchIsIdentity<T>(ss: Sections<T>, n: SectionName)
    ensures UpdateSection(ss, n, Patch(None, None, None)) == ss
  {
    var r := UpdateSection(ss, n, Patch(None, None, None));
    assert forall m: SectionName :: Get(r, m) == Get(ss, m);
    assert r == Sections(Get(r, MyRentalRequests), Get(r, ReceivedRentalRequests), Get(r, MyUsedCars), Get(r, MyRentalCars));
  }

  /** How a fetch ended: the list the extractor found in the reply (`None`
      when the reply has no such list), or a failed request. */
  datatype Outcome<T> = Fetched(list: Option<seq<T>>) | Failed

  /** The message a failed fetch leaves in its section. */
  function FailureMessage(n: SectionName): string {
    "Failed to fetch " + SectionKey(n) + ". Please try again."
  }

  /** The first update of `fetchData`: loading, error cleared. */
  function FetchStart<T>(ss: Sections<T>, n: SectionName): (r: Sections<T>)
    ensures Get(r, n) == SectionState(Get(ss, n).data, true, None)
    ensures forall m: SectionName :: m != n ==> Get(r, m) == Get(ss, m)
  {
    UpdateSection(ss, n, Patch(None, Some(true), Some(None)))
  }

  /** `fetchData`: both updates.  A success stores the list (or `[]`) and
      stops loading; a failure stops loading and sets the message, and keeps
      whatever data the section held before. */
  function FetchData<T>(ss: Sections<T>, n: SectionName, o: Outcome<T>): (r: Sections<T>)
    ensures o.Fetched? ==> Get(r, n) == SectionState(o.list.GetOr([]), false, None)
    ensures o.Failed? ==> Get(r, n) == SectionState(Get(ss, n).data, false, Some(FailureMessage(n)))
    ensures forall m: SectionName :: m != n ==> Get(r, m) == Get(ss, m)
  {
    var started := FetchStart(ss, n);
    match o
    case Fetched(list) => UpdateSection(started, n, Patch(Some(list.GetOr([])), Some(false), None))
    case Failed => UpdateSection(started, n, Patch(None, Some(false), Some(Some(FailureMessage(n)))))
  }

  /** What a section shows. */
  datatype View<T> = Spinner | ErrorBox(message: string) | EmptyNote | Content(items: seq<T>)

  /** `renderSection`: loading first, then a non-empty error, then an empty
      list, then the content. */
  function Render<T>(s: SectionState<T>): (v: View<T>)
    ensures s.loading <==> v == Spinner
    ensures !s.loading && TruthyText(s.error) <==> v == ErrorBox(s.error.GetOr(""))
    ensures v.EmptyNote? <==> !s.loading && !TruthyText(s.error) && |s.data| == 0
    ensures v.Content? ==> v.items == s.data && |s.data| > 0
  {
    if s.loading then Spinner
    else if TruthyText(s.error) then ErrorBox(s.error.value)
    else if |s.data| == 0 then EmptyNote
    else Content(s.data)
  }

  /** A finished fetch never leaves a spinner: a success shows the fetched
      list (or the empty note), a failure shows its message even when the
      section still holds earlier data. */
  lemma FetchThenRender<T>(ss: Sections<T>, n: SectionName, o: Outcome<T>)
    ensures var v := Render(Get(FetchData(ss, n, o), n));
      && (o.Fetched? && |o.list.GetOr([])| > 0 ==> v == Content(o.list.GetOr([])))
      && (o.Fetched? && |o.list.GetOr([])| == 0 ==> v == EmptyNote)
      && (o.Failed? ==> v == ErrorBox(FailureMessage(n)))
  {
  }

  // ---------------------------------------------------------------------------
  // Status actions

  /** The buttons the owner sees on a received request. */
  function OwnerActions(s: RentalStatus): (r: seq<RentalStatus>)
    ensures |r| > 0 <==> s == Pending || s == Approved
  {
    match s
    case Pending => [Approved, Rejected]
    case Approved => [Completed]
    case _ => []
  }

  /** The button the renter sees on one of their requests. */
  function RenterActions(s: RentalStatus): (r: seq<RentalStatus>)
    ensures |r| > 0 <==> s == Pending
  {
    if s == Pending then [Cancelled] else []
  }

  /** The intended lifecycle: a pending request is approved, rejected or
      cancelled; an approved one is completed; the other states are final. */
  predicate LegalEdge(from: RentalStatus, to: RentalStatus) {
    || (from == Pending && (to == Approved || to == Rejected || to == Cancelled))
    || (from == Approved && to == Completed)
  }

  /** The buttons are exactly the lifecycle's edges: the owner's approve,
      reject and complete, the renter's cancel. */
  lemma ActionsAreLegalEdges(from: RentalStatus, to: RentalStatus)
    ensures LegalEdge(from, to) <==> to in OwnerActions(from) || to in RenterActions(from)
    ensures to in OwnerActions(from) ==> to != Cancelled
    ensures to in RenterActions(from) ==> to == Cancelled
  {
  }

  /** `handleStatusUpdate`: the rental request's endpoint and the status
      name sent in the body, which the schema reads back as that status. */
  function ActionRequest(requestId: string, to: RentalStatus): (r: (string, string))
    ensures r.0 == "/api/rentals/" + requestId
    ensures ParseStatus(r.1) == Some(to)
  {
    ("/api/rentals/" + requestId, StatusName(to))
  }

  /** Every button offered on a request sends a status the schema accepts,
      and the change it asks for is an edge of the lifecycle. */
  lemma ButtonsSendLegalStatus(requestId: string, from: RentalStatus, to: RentalStatus)
    requires to in OwnerActions(from) || to in RenterActions(from)
    ensures var (url, status) := ActionRequest(requestId, to);
      && url == "/api/rentals/" + requestId
      && ParseStatus(status) == Some(to)
      && LegalEdge(from, to)
  {
    ActionsAreLegalEdges(from, to);
  }

  /** Upper-casing of an ASCII letter. */
  function UpperChar(c: char): char {
    if 'a' <= c <= 'z' then (c as int - 32) as char else c
  }

  /** `t.charAt(0).toUpperCase() + t.slice(1)`. */
  function Capitalise(t: string): (r: string)
    ensures |r| == |t|
    ensures |t| > 0 ==> r[0] == UpperChar(t[0]) && r[1..] == t[1..]
  {
    if |t| == 0 then "" else [UpperChar(t[0])] + t[1..]
  }

  function StatusLabel(s: RentalStatus): string {
    Capitalise(StatusName(s))
  }

  predicate LowerCaseLetters(n: string) {
    forall k :: 0 <= k < |n| ==> 'a' <= n[k] <= 'z'
  }

  lemma StatusNameLowerCase(s: RentalStatus)
    ensures LowerCaseLetters(StatusName(s)) && |StatusName(s)| > 0
  {
  }

  /** Upper-casing the first letter of a lower-case name is undone by
      lower-casing. */
  lemma LowerCapitalised(n: string)
    requires LowerCaseLetters(n)
    ensures Lower(Capitalise(n)) == n
  {
    var l := Capitalise(n);
    if |n| > 0 {
      assert Lower(l)[0] == LowerChar(UpperChar(n[0])) == n[0];
      assert forall k :: 1 <= k < |n| ==> Lower(l)[k] == LowerChar(n[k]) == n[k];
    }
  }

  /** The label reads back as the status: lower-casing it gives the status
      name, and distinct statuses get distinct labels. */
  lemma StatusLabelRoundTrip(s: RentalStatus, t: RentalStatus)
    ensures Lower(StatusLabel(s)) == StatusName(s)
    ensures StatusLabel(s) == StatusLabel(t) ==> s == t
  {
    StatusNameLowerCase(s);
    StatusNameLowerCase(t);
    LowerCapitalised(StatusName(s));
    LowerCapitalised(StatusName(t));
    assert ParseStatus(StatusName(s)) == Some(s);
  }

  // ---------------------------------------------------------------------------
  // Availability toggle

  /** `handleToggleAvailability`: the endpoint and the value sent. */
  function ToggleRequest(carId: string, current: bool): (r: (string, bool))
    ensures r.1 == !current
  {
    ("/api/cars/update-availability/" + carId, !current)
  }

  /** Toggling twice asks for the original value again, at the same endpoint. */
  lemma ToggleTwice(carId: string, current: bool)
    ensures ToggleRequest(carId, ToggleRequest(carId, current).1) == ("/api/cars/update-availability/" + carId, current)
  {
  }
}

=== FILE: gates.dfy ===
/** Authorisation: the edge middleware that checks the session token on the
    paths its matcher covers, the admin gate, the admin-or-the-brand-itself
    gate, and the admin-only user listing (`GET /api/users`) built on the
    admin gate.

    Token verification is a parameter: `verify(token)` is the email the
    token's payload carries, or `None` when the token does not verify.  The
    email the middleware extracts reaches the handler gates as an input,
    `header`, whose absence or emptiness they refuse. */
module Gates {
  import opened Common
  import opened Models

  /** What the middleware does with a request: let it through, carrying
      the requester's email when a token was verified, or answer it. */
  datatype Verdict = Pass(email: Option<string>) | Deny(status: int, message: string)

  /** What a handler gate decides. */
  datatype Decision = Allow | Refused(status: int, message: string)

  // ---------------------------------------------------------------------------
  // The edge middleware

  /** The two path prefixes that skip the token check; a plain prefix test,
      so "/api/users/authx" is skipped as well. */
  predicate Ignored(path: string) {
    StartsWith(path, "/api/users/auth") || StartsWith(path, "/api/brands/auth")
  }

  /** `middleware`: `token` is the session cookie's value, if any. */
  function Middleware(path: string, token: Option<string>, verify: string -> Option<string>): (v: Verdict)
    ensures Ignored(path) ==> v == Pass(None)
    ensures !Ignored(path) && !TruthyText(token) ==> v == Deny(401, "Authentication required")
    ensures !Ignored(path) && TruthyText(token) && verify(token.value).None? ==> v == Deny(401, "Invalid or expired token")
    ensures v.Pass? <==> Ignored(path) || (TruthyText(token) && verify(token.value).Some?)
    ensures v.Pass? && !Ignored(path) ==> v.email == verify(token.value)
  {
    if Ignored(path) then Pass(None)
    else if !TruthyText(token) then Deny(401, "Authentication required")
    else
      match verify(token.value)
      case None => Deny(401, "Invalid or expired token")
      case Some(email) => Pass(Some(email))
  }

  /** The matcher: `/api/users` and everything below it, `/dashboard`, and
      `/api/brands` and everything below it. */
  predicate Matched(path: string) {
    || path == "/api/users" || StartsWith(path, "/api/users/")
    || path == "/dashboard"
    || path == "/api/brands" || StartsWith(path, "/api/brands/")
  }

  /** A request as the edge sees it: the middleware runs only on matched
      paths; every other path passes untouched. */
  function Edge(path: string, token: Option<string>, verify: string -> Option<string>): (v: Verdict)
    ensures !Matched(path) ==> v == Pass(None)
    ensures Matched(path) ==> v == Middleware(path, token, verify)
    ensures v.Deny? ==> Matched(path) && !Ignored(path) && v.status == 401
  {
    if Matched(path) then Middleware(path, token, verify) else Pass(None)
  }

  /** Two prefixes of one string agree on their common length. */
  lemma PrefixesAgree(path: string, p: string, q: string, i: nat)
    requires StartsWith(path, p) && StartsWith(path, q) && i < |p| && i < |q|
    ensures p[i] == q[i]
  {
    assert path[..|p|][i] == path[i] == path[..|q|][i];
  }

  /** The rental, review, car and ad routes are outside the matcher: they
      pass the edge whatever token the request carries. */
  lemma UngatedRoutes(path: string, token: Option<string>, verify: string -> Option<string>)
    requires StartsWith(path, "/api/rentals") || StartsWith(path, "/api/review")
          || StartsWith(path, "/api/cars") || StartsWith(path, "/api/ads")
    ensures Edge(path, token, verify) == Pass(None)
  {
    var p := if StartsWith(path, "/api/rentals") then "/api/rentals"
             else if StartsWith(path, "/api/review") then "/api/review"
             else if StartsWith(path, "/api/cars") then "/api/cars" else "/api/ads";
    assert StartsWith(path, p);
    assert path[..|p|] == p;
    assert path[5] == p[5] && p[5] != 'u' && p[5] != 'b';
    assert path != "/api/users" && path != "/api/brands";
    if StartsWith(path, "/api/users/") { PrefixesAgree(path, p, "/api/users/", 5); }
    if StartsWith(path, "/api/brands/") { PrefixesAgree(path, p, "/api/brands/", 5); }
    assert path[1] == 'a';
    assert path != "/dashboard";
  }

  /** The auth prefix test is a plain prefix test: a path that merely
      starts with "/api/users/auth" passes without any token. */
  lemma AuthPrefixIsPlain(verify: string -> Option<string>)
    ensures Edge("/api/users/authx", None, verify) == Pass(None)
  {
    assert StartsWith("/api/users/authx", "/api/users/auth");
    assert StartsWith("/api/users/authx", "/api/users/");
  }

  /** Below the auth prefixes, a matched path passes the edge exactly when
      it carries a token that verifies, and then it carries that token's
      email. */
  lemma GatedPathNeedsToken(path: string, token: Option<string>, verify: string -> Option<string>)
    requires Matched(path) && !Ignored(path)
    ensures Edge(path, token, verify).Pass? <==> TruthyText(token) && verify(token.value).Some?
    ensures Edge(path, token, verify).Pass? ==> Edge(path, token, verify).email == verify(token.value)
  {
  }

  // ---------------------------------------------------------------------------
  // The admin gate

  /** `adminMiddleware`: the requester must be a user whose role is
      "admin"; all three failures carry the same message. */
  function AdminGate(users: seq<User>, header: Option<string>): (d: Decision)
    ensures d.Refused? ==> d == Refused(401, "User not found or unauthorized.")
    ensures d == Allow <==>
      TruthyText(header) && UserByEmail(users, header.value).Some? && UserByEmail(users, header.value).value.role == "admin"
  {
    if !TruthyText(header) then Refused(401, "User not found or unauthorized.")
    else
      match UserByEmail(users, header.value)
      case None => Refused(401, "User not found or unauthorized.")
      case Some(u) => if u.role != "admin" then Refused(401, "User not found or unauthorized.") else Allow
  }

  /** With unique emails, the admin gate allows exactly the requests made
      by some user with the admin role. */
  lemma AdminGateMeansAdmin(users: seq<User>, header: Option<string>)
    requires UserKeysUnique(users)
    ensures AdminGate(users, header) == Allow <==>
      TruthyText(header) && exists k :: 0 <= k < |users| && users[k].email == header.value && users[k].role == "admin"
  {
    if TruthyText(header) && exists k :: 0 <= k < |users| && users[k].email == header.value && users[k].role == "admin" {
      var k :| 0 <= k < |users| && users[k].email == header.value && users[k].role == "admin";
      var u := UserByEmail(users, header.value);
      var j :| 0 <= j < |users| && users[j] == u.value;
      assert j == k;
    }
  }

  // ---------------------------------------------------------------------------
  // The admin-or-brand gate

  /** `Brand.findById`. */
  function BrandById(brands: seq<Brand>, id: Id): (r: Option<Brand>)
    ensures r.Some? ==> r.value in brands && r.value.id == id
    ensures r.None? <==> forall k :: 0 <= k < |brands| ==> brands[k].id != id
  {
    Find(brands, (b: Brand) => b.id == id)
  }

  /** The requester may act on the brand: it is the brand itself, or a user
      with the admin role. */
  predicate SelfOrAdmin(users: seq<User>, brand: Brand, email: string) {
    brand.email == email || (UserByEmail(users, email).Some? && UserByEmail(users, email).value.role == "admin")
  }

  /** `adminOrBrandMiddleware`, for the brand with id `brandId`: checks the
      header, then that the brand exists, then the requester's identity. */
  function AdminOrBrandGate(db: Db, header: Option<string>, brandId: Id): (d: Decision)
    ensures !TruthyText(header) ==> d == Refused(401, "User not found or unauthorized.")
    ensures TruthyText(header) && BrandById(db.brands, brandId).None? ==> d == Refused(404, "Brand not found.")
    ensures (TruthyText(header) && BrandById(db.brands, brandId).Some?
             && !SelfOrAdmin(db.users, BrandById(db.brands, brandId).value, header.value)) ==>
      d == Refused(401, "Not authorized.")
    ensures d == Allow <==>
      && TruthyText(header) && BrandById(db.brands, brandId).Some?
      && SelfOrAdmin(db.users, BrandById(db.brands, brandId).value, header.value)
  {
    if !TruthyText(header) then Refused(401, "User not found or unauthorized.")
    else
      match BrandById(db.brands, brandId)
      case None => Refused(404, "Brand not found.")
      case Some(brand) =>
        if brand.email != header.value then
          match UserByEmail(db.users, header.value)
          case None => Refused(401, "Not authorized.")
          case Some(u) => if u.role != "admin" then Refused(401, "Not authorized.") else Allow
        else Allow
  }

  /** A brand may always act on itself, and an admin on any existing brand;
      any other requester is refused. */
  lemma AdminOrBrandWho(db: Db, brandId: Id, email: string)
    requires email != "" && BrandById(db.brands, brandId).Some?
    ensures BrandById(db.brands, brandId).value.email == email ==> AdminOrBrandGate(db, Some(email), brandId) == Allow
    ensures AdminGate(db.users, Some(email)) == Allow ==> AdminOrBrandGate(db, Some(email), brandId) == Allow
    ensures (BrandById(db.brands, brandId).value.email != email && AdminGate(db.users, Some(email)) != Allow) ==>
      AdminOrBrandGate(db, Some(email), brandId) == Refused(401, "Not authorized.")
  {
  }

  // ---------------------------------------------------------------------------
  // `GET /api/users`

  /** A listed user as serialised: the document without password and
      timestamps, with the role when the document still carries it. */
  datatype Listing = Listing(id: Id, name: string, email: string, phoneNumber: string,
                             profilePic: Option<string>, address: Option<string>, role: Option<string>)

  /** The projection as written: `select` drops password and timestamps, and
      deleting `role` from a hydrated document removes nothing, because the
      schema's paths are not own properties of the document; serialising it
      still writes the role. */
  function ListingOf(u: User): (l: Listing)
    ensures l.role == Some(u.role)
  {
    Listing(u.id, u.name, u.email, u.phoneNumber, u.profilePic, u.address, Some(u.role))
  }

  /** The projection the route means: the same fields without the role. */
  function Stripped(l: Listing): (r: Listing)
    ensures r.role.None? && r.(role := l.role) == l
  {
    l.(role := None)
  }

  predicate NotAdmin(u: User) {
    u.role != "admin"
  }

  /** The listing the route returns: the non-admin users, in store order,
      each projected. */
  function Listings(users: seq<User>): (r: seq<Listing>)
    ensures |r| <= |users|
    ensures forall k :: 0 <= k < |users| && NotAdmin(users[k]) ==> ListingOf(users[k]) in r
    ensures forall k :: 0 <= k < |r| ==> exists j :: 0 <= j < |users| && NotAdmin(users[j]) && r[k] == ListingOf(users[j])
    decreases |users|
  {
    if |users| == 0 then []
    else
      var rest := Listings(users[1..]);
      assert forall j :: 0 <= j < |users| - 1 ==> users[1..][j] == users[j + 1];
      if NotAdmin(users[0]) then [ListingOf(users[0])] + rest else rest
  }

  /** The listing corrected: the same users in the same order, none of them
      carrying a role. */
  function ListingsCorrected(users: seq<User>): (r: seq<Listing>)
    ensures |r| == |Listings(users)|
    ensures forall k :: 0 <= k < |r| ==> r[k].role.None? && r[k].(role := Listings(users)[k].role) == Listings(users)[k]
  {
    var l := Listings(users);
    seq(|l|, k requires 0 <= k < |l| => Stripped(l[k]))
  }

  /** As written, a listed user still carries its role; corrected, it does
      not. */
  lemma ListingKeepsRole(u: User)
    requires NotAdmin(u)
    ensures Listings([u]) == [ListingOf(u)] && Listings([u])[0].role == Some(u.role)
    ensures ListingsCorrected([u])[0].role.None?
  {
    assert [u][1..] == [];
  }

  /** `GET /api/users`: a refusal of the admin gate is returned as it is;
      otherwise 200 with the listing. */
  function UsersGet(db: Db, header: Option<string>): (r: Response<seq<Listing>>)
    ensures AdminGate(db.users, header).Refused? ==>
      r == Response(AdminGate(db.users, header).status, AdminGate(db.users, header).message, None)
    ensures r.status == 200 <==> AdminGate(db.users, header) == Allow
    ensures r.status == 200 ==> r.body == Some(Listings(db.users))
  {
    match AdminGate(db.users, header)
    case Refused(status, message) => Response(status, message, None)
    case Allow => Response(200, "", Some(Listings(db.users)))
  }

  /** The listing keeps the relative order of the users it lists: listing a
      store with one more user appended lists that user last, if at all. */
  lemma {:induction false} ListingsAppend(users: seq<User>, u: User)
    ensures Listings(users + [u]) == Listings(users) + (if NotAdmin(u) then [ListingOf(u)] else [])
    decreases |users|
  {
    if |users| == 0 {
      assert users + [u] == [u];
      assert [u][1..] == [];
    } else {
      assert (users + [u])[1..] == users[1..] + [u];
      ListingsAppend(users[1..], u);
    }
  }
}

=== FILE: models.dfy ===
/** The document schemas of the marketplace (cars, users, brands, rental
    requests, reviews and used-car ads) and the in-memory store they live in.

    Each `New<Entity>` function is what `Model.create(doc)` does with a
    document: it applies the schema's `required` rules, its enumerations and
    its defaults, and answers `None` where Mongoose would raise a validation
    error.  A `required` String path rejects an absent value and the empty
    string; a `required` Number or ObjectId path rejects only an absent one. */
module Models {
  import opened Common

  /** Document identity (an ObjectId, abstracted to a number). */
  type Id = nat

  // ---------------------------------------------------------------------------
  // Enumerations

  /** The lifecycle states of a rental request. */
  datatype RentalStatus = Pending | Approved | Rejected | Cancelled | Completed

  function StatusName(s: RentalStatus): string {
    match s
    case Pending => "pending"
    case Approved => "approved"
    case Rejected => "rejected"
    case Cancelled => "cancelled"
    case Completed => "completed"
  }

  /** The schema's `enum` check on `status`: only the five names are accepted. */
  function ParseStatus(t: string): (r: Option<RentalStatus>)
    ensures r.Some? ==> StatusName(r.value) == t
    ensures r.None? <==> forall s: RentalStatus :: StatusName(s) != t
  {
    if t == "pending" then Some(Pending)
    else if t == "approved" then Some(Approved)
    else if t == "rejected" then Some(Rejected)
    else if t == "cancelled" then Some(Cancelled)
    else if t == "completed" then Some(Completed)
    else None
  }

  /** The two kinds of review: of a car (by its renter) or of a renter (by the owner). */
  datatype ReviewType = CarReview | RenterReview

  function ReviewTypeName(t: ReviewType): string {
    match t
    case CarReview => "car"
    case RenterReview => "renter"
  }

  function ParseReviewType(t: string): (r: Option<ReviewType>)
    ensures r.Some? ==> ReviewTypeName(r.value) == t
    ensures r.None? <==> forall k: ReviewType :: ReviewTypeName(k) != t
  {
    if t == "car" then Some(CarReview)
    else if t == "renter" then Some(RenterReview)
    else None
  }

  // ---------------------------------------------------------------------------
  // Car listings

  datatype Car = Car(
    id: Id, ownerId: Id, title: string, description: Option<string>, location: string,
    price: Option<int>, pricePerDay: Option<int>, availability: bool, images: seq<string>,
    isForSale: bool, isForRent: bool)

  datatype CarDoc = CarDoc(
    ownerId: Option<Id>, title: Option<string>, description: Option<string>, location: Option<string>,
    price: Option<int>, pricePerDay: Option<int>, availability: Option<bool>, images: seq<string>,
    isForSale: Option<bool>, isForRent: Option<bool>)

  /** A boolean path with `default: false`. */
  function DefaultFalse(o: Option<bool>): (b: bool)
    ensures b <==> o == Some(true)
  {
    o.GetOr(false)
  }

  /** `Car.create`: owner, title and location are required; description and
      both prices are optional; the three flags default to false, each
      independently of the others. */
  function NewCar(id: Id, d: CarDoc): (r: Option<Car>)
    ensures r.Some? <==> d.ownerId.Some? && TruthyText(d.title) && TruthyText(d.location)
    ensures r.Some? ==> r.value.id == id && r.value.ownerId == d.ownerId.value
    ensures r.Some? ==> r.value.title == d.title.value && r.value.location == d.location.value
    ensures r.Some? ==> r.value.description == d.description && r.value.images == d.images
    ensures r.Some? ==> r.value.price == d.price && r.value.pricePerDay == d.pricePerDay
    ensures r.Some? ==> (r.value.availability <==> d.availability == Some(true))
    ensures r.Some? ==> (r.value.isForSale <==> d.isForSale == Some(true))
    ensures r.Some? ==> (r.value.isForRent <==> d.isForRent == Some(true))
  {
    if d.ownerId.Some? && TruthyText(d.title) && TruthyText(d.location) then
      Some(Car(id, d.ownerId.value, d.title.value, d.description, d.location.value, d.price,
               d.pricePerDay, DefaultFalse(d.availability), d.images, DefaultFalse(d.isForSale),
               DefaultFalse(d.isForRent)))
    else None
  }

  // ---------------------------------------------------------------------------
  // Users

  datatype User = User(
    id: Id, name: string, email: string, phoneNumber: string, password: string,
    profilePic: Option<string>, address: Option<string>, role: string)

  datatype UserDoc = UserDoc(
    name: Option<string>, email: Option<string>, phoneNumber: Option<string>, password: Option<string>,
    profilePic: Option<string>, address: Option<string>, role: Option<string>)

  /** `User.create`: name, email, phone number and password are required;
      picture and address are optional; the role defaults to "user". */
  function NewUser(id: Id, d: UserDoc): (r: Option<User>)
    ensures r.Some? <==> TruthyText(d.name) && TruthyText(d.email) && TruthyText(d.phoneNumber) && TruthyText(d.password)
    ensures r.Some? ==> r.value.id == id && r.value.name == d.name.value && r.value.email == d.email.value
    ensures r.Some? ==> r.value.phoneNumber == d.phoneNumber.value && r.value.password == d.password.value
    ensures r.Some? ==> r.value.profilePic == d.profilePic && r.value.address == d.address
    ensures r.Some? ==> r.value.role == (if d.role.Some? then d.role.value else "user")
  {
    if TruthyText(d.name) && TruthyText(d.email) && TruthyText(d.phoneNumber) && TruthyText(d.password) then
      Some(User(id, d.name.value, d.email.value, d.phoneNumber.value, d.password.value,
                d.profilePic, d.address, d.role.GetOr("user")))
    else None
  }

  /** The two unique indexes of the users collection. */
  ghost predicate UserKeysUnique(users: seq<User>) {
    forall i, j :: 0 <= i < j < |users| ==>
      users[i].email != users[j].email && users[i].phoneNumber != users[j].phoneNumber
  }

  /** Neither unique key of the users collection already holds `email` or `phone`. */
  predicate UserKeysFree(users: seq<User>, email: string, phone: string) {
    forall k :: 0 <= k < |users| ==> users[k].email != email && users[k].phoneNumber != phone
  }

  /** Inserting into the users collection: refused (a duplicate-key error)
      when the email or the phone number is already taken. */
  function InsertUser(users: seq<User>, u: User): (r: Option<seq<User>>)
    ensures r.Some? <==> UserKeysFree(users, u.email, u.phoneNumber)
    ensures r.Some? ==> r.value == users + [u]
    ensures r.Some? && UserKeysUnique(users) ==> UserKeysUnique(r.value)
  {
    if exists k :: 0 <= k < |users| && (users[k].email == u.email || users[k].phoneNumber == u.phoneNumber) then None
    else Some(users + [u])
  }

  /** `User.findOne({ email })`: the first user whose stored email is
      exactly `email`. */
  function UserByEmail(users: seq<User>, email: string): (r: Option<User>)
    ensures r.Some? ==> r.value.email == email && exists k :: 0 <= k < |users| && users[k] == r.value
    ensures r.None? <==> forall k :: 0 <= k < |users| ==> users[k].email != email
  {
    Find(users, (u: User) => u.email == email)
  }

  // ---------------------------------------------------------------------------
  // Brands

  datatype Brand = Brand(
    id: Id, name: string, email: string, password: string, logo: string,
    isVerified: bool, cars: seq<string>)

  datatype BrandDoc = BrandDoc(
    name: Option<string>, email: Option<string>, password: Option<string>, logo: Option<string>,
    isVerified: Option<bool>, cars: Option<seq<string>>)

  /** `Brand.create`: name, email, password and logo are required; a new
      brand is unverified and has an empty catalogue unless told otherwise. */
  function NewBrand(id: Id, d: BrandDoc): (r: Option<Brand>)
    ensures r.Some? <==> TruthyText(d.name) && TruthyText(d.email) && TruthyText(d.password) && TruthyText(d.logo)
    ensures r.Some? ==> r.value.id == id && r.value.name == d.name.value && r.value.email == d.email.value
    ensures r.Some? ==> r.value.password == d.password.value && r.value.logo == d.logo.value
    ensures r.Some? ==> (r.value.isVerified <==> d.isVerified == Some(true))
    ensures r.Some? ==> r.value.cars == (if d.cars.Some? then d.cars.value else [])
  {
    if TruthyText(d.name) && TruthyText(d.email) && TruthyText(d.password) && TruthyText(d.logo) then
      Some(Brand(id, d.name.value, d.email.value, d.password.value, d.logo.value,
                 DefaultFalse(d.isVerified), d.cars.GetOr([])))
    else None
  }

  /** The unique index of the brands collection: email only. */
  ghost predicate BrandEmailsUnique(brands: seq<Brand>) {
    forall i, j :: 0 <= i < j < |brands| ==> brands[i].email != brands[j].email
  }

  /** No brand already holds `email`. */
  predicate BrandEmailFree(brands: seq<Brand>, email: string) {
    forall k :: 0 <= k < |brands| ==> brands[k].email != email
  }

  function InsertBrand(brands: seq<Brand>, b: Brand): (r: Option<seq<Brand>>)
    ensures r.Some? <==> BrandEmailFree(brands, b.email)
    ensures r.Some? ==> r.value == brands + [b]
    ensures r.Some? && BrandEmailsUnique(brands) ==> BrandEmailsUnique(r.value)
  {
    if exists k :: 0 <= k < |brands| && brands[k].email == b.email then None
    else Some(brands + [b])
  }

  // ---------------------------------------------------------------------------
  // Rental requests

  /** A booking request; dates are millisecond timestamps. */
  datatype RentalRequest = RentalRequest(
    id: Id, renterId: Id, carId: Id, ownerId: Id, startDate: int, endDate: int,
    totalPrice: int, status: RentalStatus)

  datatype RentalDoc = RentalDoc(
    renterId: Option<Id>, carId: Option<Id>, ownerId: Option<Id>, startDate: Option<int>,
    endDate: Option<int>, totalPrice: Option<int>, status: Option<string>)

  /** `RentalRequest.create`: all six fields are required, the status must be
      one of the five names and is "pending" when not given.  The schema
      itself places no order on the two dates. */
  function NewRental(id: Id, d: RentalDoc): (r: Option<RentalRequest>)
    ensures r.Some? <==>
      && d.renterId.Some? && d.carId.Some? && d.ownerId.Some?
      && d.startDate.Some? && d.endDate.Some? && d.totalPrice.Some?
      && (d.status.None? || ParseStatus(d.status.value).Some?)
    ensures r.Some? ==>
      && r.value.id == id && r.value.renterId == d.renterId.value
      && r.value.carId == d.carId.value && r.value.ownerId == d.ownerId.value
      && r.value.startDate == d.startDate.value && r.value.endDate == d.endDate.value
      && r.value.totalPrice == d.totalPrice.value
    ensures r.Some? && d.status.None? ==> r.value.status == Pending
    ensures r.Some? && d.status.Some? ==> StatusName(r.value.status) == d.status.value
  {
    if && d.renterId.Some? && d.carId.Some? && d.ownerId.Some?
       && d.startDate.Some? && d.endDate.Some? && d.totalPrice.Some?
    then
      var status := if d.status.None? then Some(Pending) else ParseStatus(d.status.value);
      match status
      case None => None
      case Some(s) =>
        Some(RentalRequest(id, d.renterId.value, d.carId.value, d.ownerId.value,
                           d.startDate.value, d.endDate.value, d.totalPrice.value, s))
    else None
  }

  /** The schema accepts a request whose end is before its start: only the
      booking route orders the dates. */
  lemma SchemaAcceptsInvertedRange()
    ensures NewRental(0, RentalDoc(Some(1), Some(2), Some(3), Some(500), Some(100), Some(10), None)).Some?
  {
  }

  // ---------------------------------------------------------------------------
  // Reviews

  datatype Review = Review(
    id: Id, reviewerId: Id, reviewedId: Id, carId: Option<Id>, rentalId: Id,
    rating: int, comment: Option<string>, reviewType: ReviewType)

  datatype ReviewDoc = ReviewDoc(
    reviewerId: Option<Id>, reviewedId: Option<Id>, carId: Option<Id>, rentalId: Option<Id>,
    rating: Option<int>, comment: Option<string>, reviewType: Option<string>)

  /** `Review.create`: reviewer, reviewed party, rental, rating and type are
      required; the rating lies in [1, 5]; the type is "car" or "renter";
      the car and the comment are optional. */
  function NewReview(id: Id, d: ReviewDoc): (r: Option<Review>)
    ensures r.Some? <==>
      && d.reviewerId.Some? && d.reviewedId.Some? && d.rentalId.Some? && d.rating.Some?
      && 1 <= d.rating.value <= 5
      && TruthyText(d.reviewType) && ParseReviewType(d.reviewType.value).Some?
    ensures r.Some? ==>
      && r.value.id == id && r.value.reviewerId == d.reviewerId.value
      && r.value.reviewedId == d.reviewedId.value && r.value.carId == d.carId
      && r.value.rentalId == d.rentalId.value && r.value.rating == d.rating.value
      && r.value.comment == d.comment && ReviewTypeName(r.value.reviewType) == d.reviewType.value
  {
    if && d.reviewerId.Some? && d.reviewedId.Some? && d.rentalId.Some? && d.rating.Some?
       && 1 <= d.rating.value <= 5 && TruthyText(d.reviewType)
    then
      match ParseReviewType(d.reviewType.value)
      case None => None
      case Some(t) =>
        Some(Review(id, d.reviewerId.value, d.reviewedId.value, d.carId, d.rentalId.value,
                    d.rating.value, d.comment, t))
    else None
  }

  // ---------------------------------------------------------------------------
  // Used-car ads

  /** A classified ad; price and mileage are free text, the model year a number. */
  datatype Ad = Ad(
    id: Id, name: string, images: seq<string>, price: string, mileage: string, modelYear: int,
    city: string, sellerName: string, sellerPhone: string, sellerComments: Option<string>)

  datatype AdDoc = AdDoc(
    name: Option<string>, images: seq<string>, price: Option<string>, mileage: Option<string>,
    modelYear: Option<int>, city: Option<string>, sellerName: Option<string>,
    sellerPhone: Option<string>, sellerComments: Option<string>)

  /** `UsedCar.create`: every text field but the comments is required, the
      model year must be present, and each image is a required string. */
  function NewAd(id: Id, d: AdDoc): (r: Option<Ad>)
    ensures r.Some? <==>
      && TruthyText(d.name) && TruthyText(d.price) && TruthyText(d.mileage) && d.modelYear.Some?
      && TruthyText(d.city) && TruthyText(d.sellerName) && TruthyText(d.sellerPhone)
      && forall k :: 0 <= k < |d.images| ==> d.images[k] != ""
    ensures r.Some? ==>
      && r.value.id == id && r.value.name == d.name.value && r.value.images == d.images
      && r.value.price == d.price.value && r.value.mileage == d.mileage.value
      && r.value.modelYear == d.modelYear.value && r.value.city == d.city.value
      && r.value.sellerName == d.sellerName.value && r.value.sellerPhone == d.sellerPhone.value
      && r.value.sellerComments == d.sellerComments
  {
    if && TruthyText(d.name) && TruthyText(d.price) && TruthyText(d.mileage) && d.modelYear.Some?
       && TruthyText(d.city) && TruthyText(d.sellerName) && TruthyText(d.sellerPhone)
       && (forall k :: 0 <= k < |d.images| ==> d.images[k] != "")
    then
      Some(Ad(id, d.name.value, d.images, d.price.value, d.mileage.value, d.modelYear.value,
              d.city.value, d.sellerName.value, d.sellerPhone.value, d.sellerComments))
    else None
  }

  // ---------------------------------------------------------------------------
  // The store

  /** All collections, in insertion order, and the next identity to hand out. */
  datatype Db = Db(
    users: seq<User>, brands: seq<Brand>, cars: seq<Car>, rentals: seq<RentalRequest>,
    reviews: seq<Review>, ads: seq<Ad>, nextId: Id)

  /** What a route answers, and the store it leaves behind. */
  datatype Reply<+T> = Reply(response: Response<T>, db: Db)

  /** A failed reply: the store is left as it was. */
  function Refuse<T>(db: Db, status: int, message: string): (r: Reply<T>)
    ensures r.db == db && r.response.body.None?
    ensures r.response.status == status && r.response.message == message
  {
    Reply(Response(status, message, None), db)
  }
}

=== FILE: rental_routes.dfy ===
/** Booking creation (`POST /api/rentals`) and the list of cars offered for
    rent (`GET /api/rentals`).

    Creation runs a fixed chain of checks, and the first one that fails
    decides the reply: all fields present, a valid date range, a car flagged
    for rent, no approved booking of that car matched by the overlap query,
    an existing renter.  Only then is a `pending` request stored, carrying the
    car's owner. */
module RentalRoutes {
  import opened Common
  import opened Models

  /** A date field of the request body: its text, and what `new Date(text)`
      makes of it as a millisecond timestamp (`None` for an invalid date). */
  datatype DateInput = DateInput(text: string, time: Option<int>)

  datatype RentalBody = RentalBody(
    renterId: Option<Id>, carId: Option<Id>, startDate: Option<DateInput>,
    endDate: Option<DateInput>, totalPrice: Option<int>)

  predicate TruthyDate(d: Option<DateInput>) {
    d.Some? && d.value.text != ""
  }

  /** The first check: every field truthy, so a total price of 0 is missing. */
  predicate FieldsPresent(b: RentalBody) {
    b.renterId.Some? && b.carId.Some? && TruthyDate(b.startDate) && TruthyDate(b.endDate)
    && TruthyNumber(b.totalPrice)
  }

  /** Both dates parse and the start is strictly before the end. */
  predicate ValidRange(b: RentalBody) {
    && b.startDate.Some? && b.endDate.Some?
    && b.startDate.value.time.Some? && b.endDate.value.time.Some?
    && b.startDate.value.time.value < b.endDate.value.time.value
  }

  function Start(b: RentalBody): int
    requires ValidRange(b)
  {
    b.startDate.value.time.value
  }

  function End(b: RentalBody): int
    requires ValidRange(b)
  {
    b.endDate.value.time.value
  }

  /** Two ranges `[s1, e1)` and `[s2, e2)` share an instant. */
  predicate Overlaps(s1: int, e1: int, s2: int, e2: int) {
    s1 < e2 && e1 > s2
  }

  /** The date part of the booking query, as written: three disjuncts, the
      first two identical, the third asking whether the existing booking lies
      inside the requested range. */
  predicate OverlapQuery(r: RentalRequest, start: int, end: int) {
    || (r.startDate < end && r.endDate > start)
    || (r.startDate < end && r.endDate > start)
    || (r.startDate >= start && r.endDate <= end)
  }

  /** The query's full filter: same car, approved, dates matched. */
  predicate Blocks(r: RentalRequest, carId: Id, start: int, end: int) {
    r.carId == carId && r.status == Approved && OverlapQuery(r, start, end)
  }

  ghost predicate CarForRent(db: Db, carId: Id) {
    exists k :: 0 <= k < |db.cars| && db.cars[k].id == carId && db.cars[k].isForRent
  }

  ghost predicate Blocked(db: Db, carId: Id, start: int, end: int) {
    exists k :: 0 <= k < |db.rentals| && Blocks(db.rentals[k], carId, start, end)
  }

  ghost predicate UserExists(db: Db, id: Id) {
    exists k :: 0 <= k < |db.users| && db.users[k].id == id
  }

  /** Every check of the chain passes. */
  ghost predicate Accepted(db: Db, b: RentalBody) {
    && FieldsPresent(b) && ValidRange(b)
    && CarForRent(db, b.carId.value)
    && !Blocked(db, b.carId.value, Start(b), End(b))
    && UserExists(db, b.renterId.value)
  }

  /** `rec` is the booking the route stores for `b`: a fresh pending request
      with the request's fields and the owner of a rentable car with that id. */
  ghost predicate IsNewBooking(db: Db, b: RentalBody, rec: RentalRequest)
    requires FieldsPresent(b) && ValidRange(b)
  {
    && rec.id == db.nextId
    && rec.renterId == b.renterId.value && rec.carId == b.carId.value
    && rec.startDate == Start(b) && rec.endDate == End(b)
    && rec.totalPrice == b.totalPrice.value
    && rec.status == Pending
    && exists k :: 0 <= k < |db.cars| && db.cars[k].id == rec.carId && db.cars[k].isForRent
                   && rec.ownerId == db.cars[k].ownerId
  }

  /** `POST /api/rentals`. */
  function CreateRental(db: Db, b: RentalBody): (r: Reply<RentalRequest>)
    ensures !FieldsPresent(b) ==> r == Refuse(db, 400, "All fields are required")
    ensures FieldsPresent(b) && !ValidRange(b) ==> r == Refuse(db, 400, "Invalid date range")
    ensures FieldsPresent(b) && ValidRange(b) && !CarForRent(db, b.carId.value) ==>
      r == Refuse(db, 404, "Car not available for rent")
    ensures (FieldsPresent(b) && ValidRange(b) && CarForRent(db, b.carId.value)
             && Blocked(db, b.carId.value, Start(b), End(b))) ==>
      r == Refuse(db, 400, "Car is already rented during the selected dates")
    ensures (FieldsPresent(b) && ValidRange(b) && CarForRent(db, b.carId.value)
             && !Blocked(db, b.carId.value, Start(b), End(b)) && !UserExists(db, b.renterId.value)) ==>
      r == Refuse(db, 404, "Renter not found")
    ensures r.response.status == 201 <==> Accepted(db, b)
    ensures Accepted(db, b) ==>
      && r.response.message == "Rental request created"
      && r.response.body.Some? && IsNewBooking(db, b, r.response.body.value)
      && r.db == db.(rentals := db.rentals + [r.response.body.value], nextId := db.nextId + 1)
  {
    if !FieldsPresent(b) then Refuse(db, 400, "All fields are required")
    else if !ValidRange(b) then Refuse(db, 400, "Invalid date range")
    else
      var carId, start, end := b.carId.value, Start(b), End(b);
      match FindFirst(db.cars, (c: Car) => c.id == carId && c.isForRent)
      case None => Refuse(db, 404, "Car not available for rent")
      case Some(i) =>
        if FindFirst(db.rentals, (x: RentalRequest) => Blocks(x, carId, start, end)).Some? then
          Refuse(db, 400, "Car is already rented during the selected dates")
        else if FindFirst(db.users, (u: User) => u.id == b.renterId.value).None? then
          Refuse(db, 404, "Renter not found")
        else
          var doc := RentalDoc(b.renterId, b.carId, Some(db.cars[i].ownerId), Some(start), Some(end),
                               b.totalPrice, Some("pending"));
          var rec := NewRental(db.nextId, doc).value;
          Reply(Response(201, "Rental request created", Some(rec)),
                db.(rentals := db.rentals + [rec], nextId := db.nextId + 1))
  }

  // ---------------------------------------------------------------------------
  // The overlap query against the half-open interval test

  /** For a requested range with start before end and an existing booking
      with start before end, the three-way query is exactly the half-open
      overlap test. */
  lemma OverlapQueryIsHalfOpen(r: RentalRequest, start: int, end: int)
    requires start < end && r.startDate < r.endDate
    ensures OverlapQuery(r, start, end) <==> Overlaps(r.startDate, r.endDate, start, end)
  {
  }

  /** A booking that ends when the requested one starts does not conflict. */
  lemma ContiguousRangesDoNotConflict(r: RentalRequest, start: int, end: int)
    requires start < end && r.startDate < r.endDate && r.endDate == start
    ensures !OverlapQuery(r, start, end)
  {
  }

  /** The schema does not order the dates, and for a stored booking whose end
      is before its start the query and the half-open test disagree: such a
      booking lying inside the requested range still blocks it. */
  lemma InvertedBookingStillBlocks()
    ensures OverlapQuery(RentalRequest(0, 1, 2, 3, 14, 9, 100, Approved), 10, 15)
    ensures !Overlaps(14, 9, 10, 15)
  {
  }

  /** Every stored booking has its start before its end. */
  ghost predicate RangesValid(rentals: seq<RentalRequest>) {
    forall k :: 0 <= k < |rentals| ==> rentals[k].startDate < rentals[k].endDate
  }

  /** No two approved bookings of the same car share an instant. */
  ghost predicate NoDoubleBooking(rentals: seq<RentalRequest>) {
    forall i, j ::
      (0 <= i < |rentals| && 0 <= j < |rentals| && i != j
       && rentals[i].carId == rentals[j].carId
       && rentals[i].status == Approved && rentals[j].status == Approved) ==>
      !Overlaps(rentals[i].startDate, rentals[i].endDate, rentals[j].startDate, rentals[j].endDate)
  }

  /** Creation only ever stores ordered ranges. */
  lemma CreateRentalKeepsRangesValid(db: Db, b: RentalBody)
    requires RangesValid(db.rentals)
    ensures RangesValid(CreateRental(db, b).db.rentals)
  {
  }

  /** Creation never adds an approved booking, so it cannot break the
      no-double-booking property of the approved ones. */
  lemma CreateRentalKeepsNoDoubleBooking(db: Db, b: RentalBody)
    requires NoDoubleBooking(db.rentals)
    ensures NoDoubleBooking(CreateRental(db, b).db.rentals)
  {
    var r := CreateRental(db, b);
    if Accepted(db, b) {
      var rs := r.db.rentals;
      assert rs == db.rentals + [r.response.body.value];
      assert rs[|rs| - 1].status == Pending;
      forall i, j | 0 <= i < |rs| && 0 <= j < |rs| && i != j
        && rs[i].carId == rs[j].carId && rs[i].status == Approved && rs[j].status == Approved
        ensures !Overlaps(rs[i].startDate, rs[i].endDate, rs[j].startDate, rs[j].endDate)
      {
        assert i < |db.rentals| && j < |db.rentals|;
        assert rs[i] == db.rentals[i] && rs[j] == db.rentals[j];
      }
    }
  }

  /** In a store of ordered ranges, an accepted booking shares no instant with
      any approved booking of the same car: the route enforces the half-open
      overlap rule. */
  lemma AcceptedBookingAvoidsApproved(db: Db, b: RentalBody)
    requires RangesValid(db.rentals)
    requires Accepted(db, b)
    ensures forall k ::
      (0 <= k < |db.rentals| && db.rentals[k].carId == b.carId.value
       && db.rentals[k].status == Approved) ==>
      !Overlaps(db.rentals[k].startDate, db.rentals[k].endDate, Start(b), End(b))
  {
    forall k | 0 <= k < |db.rentals| && db.rentals[k].carId == b.carId.value
      && db.rentals[k].status == Approved
      ensures !Overlaps(db.rentals[k].startDate, db.rentals[k].endDate, Start(b), End(b))
    {
      assert !Blocks(db.rentals[k], b.carId.value, Start(b), End(b));
      OverlapQueryIsHalfOpen(db.rentals[k], Start(b), End(b));
    }
  }

  /** Conversely, a request whose range overlaps an approved booking of the
      same car is refused and stores nothing. */
  lemma OverlappingRequestRefused(db: Db, b: RentalBody, k: nat)
    requires FieldsPresent(b) && ValidRange(b) && CarForRent(db, b.carId.value)
    requires k < |db.rentals| && db.rentals[k].carId == b.carId.value
    requires db.rentals[k].status == Approved
    requires Overlaps(db.rentals[k].startDate, db.rentals[k].endDate, Start(b), End(b))
    ensures CreateRental(db, b) == Refuse(db, 400, "Car is already rented during the selected dates")
  {
    assert Blocks(db.rentals[k], b.carId.value, Start(b), End(b));
  }

  /** The booking scenario: car 7 is booked (approved) for days [10, 15).
      A request for [14, 20) is refused; one for [15, 20) is accepted. */
  lemma BookingScenario()
    ensures
      var car := Car(7, 2, "Civic", None, "Lahore", None, Some(50), true, ["a.png"], false, true);
      var renter := User(3, "Ali", "ali@x.pk", "0300", "h", None, None, "user");
      var booked := RentalRequest(9, 4, 7, 2, 10, 15, 250, Approved);
      var db := Db([renter], [], [car], [booked], [], [], 20);
      && CreateRental(db, RentalBody(Some(3), Some(7), Some(DateInput("d14", Some(14))),
                                     Some(DateInput("d20", Some(20))), Some(300))).response.status == 400
      && CreateRental(db, RentalBody(Some(3), Some(7), Some(DateInput("d15", Some(15))),
                                     Some(DateInput("d20", Some(20))), Some(250))).response.status == 201
  {
    var car := Car(7, 2, "Civic", None, "Lahore", None, Some(50), true, ["a.png"], false, true);
    var renter := User(3, "Ali", "ali@x.pk", "0300", "h", None, None, "user");
    var booked := RentalRequest(9, 4, 7, 2, 10, 15, 250, Approved);
    var db := Db([renter], [], [car], [booked], [], [], 20);
    var late := RentalBody(Some(3), Some(7), Some(DateInput("d15", Some(15))),
                           Some(DateInput("d20", Some(20))), Some(250));
    assert CarForRent(db, 7) by { assert db.cars[0].id == 7; }
    assert UserExists(db, 3) by { assert db.users[0].id == 3; }
    assert !Blocked(db, 7, 15, 20) by {
      assert |db.rentals| == 1 && !Blocks(db.rentals[0], 7, 15, 20);
    }
    assert Accepted(db, late);
    OverlappingRequestRefused(db, RentalBody(Some(3), Some(7), Some(DateInput("d14", Some(14))),
                                             Some(DateInput("d20", Some(20))), Some(300)), 0);
  }

  // ---------------------------------------------------------------------------
  // GET /api/rentals

  /** The cars offered for rent: exactly those flagged `isForRent`, in store
      order. */
  function RentalCars(db: Db): (r: seq<Car>)
    ensures forall k :: 0 <= k < |r| ==> r[k] in db.cars && r[k].isForRent
    ensures forall k :: 0 <= k < |db.cars| && db.cars[k].isForRent ==> db.cars[k] in r
    ensures IsSubsequence(r, db.cars)
    ensures forall c :: multiset(r)[c] == (if c.isForRent then multiset(db.cars)[c] else 0)
  {
    Filter(db.cars, (c: Car) => c.isForRent)
  }
}

=== FILE: rentals_page.dfy ===
/** The rentals page: the booking form's price estimate, its recomputation
    on every date change, and the submission of a booking request.

    `new Date(text).getTime()` is a parameter, `parse`: the millisecond
    timestamp of a date text, or `None` where JavaScript yields NaN.  A
    total that JavaScript would compute as NaN (an unparseable date, or a
    car without a daily price) is `None`. */
module RentalsPage {
  import opened Common
  import opened Models
  import RentalRoutes

  /** Milliseconds in a day. */
  const DayMs: int := 1000 * 60 * 60 * 24

  /** What the page knows of a car offered for rent. */
  datatype RentalCar = RentalCar(id: Id, pricePerDay: Option<int>)

  /** The form: the two date texts and the estimated total. */
  datatype RentalForm = RentalForm(startDate: string, endDate: string, totalPrice: Option<int>)

  const EmptyForm: RentalForm := RentalForm("", "", Some(0))

  /** `Math.ceil(a / b)` for a positive divisor. */
  function CeilDiv(a: int, b: int): (q: int)
    requires b > 0
    ensures (q - 1) * b < a <= q * b
  {
    -((-a) / b)
  }

  /** The integer that the bounds of `CeilDiv` pin down is unique. */
  lemma CeilDivUnique(a: int, b: int, n: int)
    requires b > 0 && (n - 1) * b < a <= n * b
    ensures CeilDiv(a, b) == n
  {
  }

  /** `calculateTotalPrice`: 0 when no car is selected or a date is empty;
      otherwise the number of started days times the daily price. */
  function TotalPrice(selected: Option<RentalCar>, start: string, end: string,
                      parse: string -> Option<int>): (r: Option<int>)
    ensures selected.None? || start == "" || end == "" ==> r == Some(0)
    ensures (selected.Some? && start != "" && end != ""
             && (parse(start).None? || parse(end).None? || selected.value.pricePerDay.None?)) ==> r.None?
    ensures (selected.Some? && start != "" && end != ""
             && parse(start).Some? && parse(end).Some? && selected.value.pricePerDay.Some?) ==>
      exists days :: (days - 1) * DayMs < parse(end).value - parse(start).value <= days * DayMs
                     && r == Some(days * selected.value.pricePerDay.value)
  {
    if selected.None? || start == "" || end == "" then Some(0)
    else
      match (parse(start), parse(end), selected.value.pricePerDay)
      case (Some(s), Some(e), Some(p)) => Some(CeilDiv(e - s, DayMs) * p)
      case _ => None
  }

  /** A stay of exactly `n` days costs `n` daily prices, and one that runs
      into an `n`-th day costs `n` as well: partial days round up. */
  lemma TotalCountsStartedDays(car: RentalCar, start: string, end: string, parse: string -> Option<int>, n: int)
    requires start != "" && end != "" && parse(start).Some? && parse(end).Some? && car.pricePerDay.Some?
    requires (n - 1) * DayMs < parse(end).value - parse(start).value <= n * DayMs
    ensures TotalPrice(Some(car), start, end, parse) == Some(n * car.pricePerDay.value)
  {
    CeilDivUnique(parse(end).value - parse(start).value, DayMs, n);
  }

  /** Which date input changed. */
  datatype DateField = StartField | EndField

  /** `handleDateChange`: store the new text, then recompute the total from
      the updated form. */
  function DateChange(form: RentalForm, field: DateField, value: string, selected: Option<RentalCar>,
                      parse: string -> Option<int>): (r: RentalForm)
    ensures r.startDate == (if field == StartField then value else form.startDate)
    ensures r.endDate == (if field == EndField then value else form.endDate)
    ensures r.totalPrice == TotalPrice(selected, r.startDate, r.endDate, parse)
  {
    match field
    case StartField => form.(startDate := value, totalPrice := TotalPrice(selected, value, form.endDate, parse))
    case EndField => form.(endDate := value, totalPrice := TotalPrice(selected, form.startDate, value, parse))
  }

  /** The total depends only on the final dates, not on the order in which
      the two inputs were filled in. */
  lemma DateChangeOrderIrrelevant(form: RentalForm, s: string, e: string, selected: Option<RentalCar>,
                                  parse: string -> Option<int>)
    ensures DateChange(DateChange(form, StartField, s, selected, parse), EndField, e, selected, parse)
         == DateChange(DateChange(form, EndField, e, selected, parse), StartField, s, selected, parse)
  {
  }

  /** The body the page posts. */
  datatype Payload = Payload(renterId: Id, carId: Id, startDate: string, endDate: string, totalPrice: Option<int>)

  /** `handleRentalSubmit`, up to the request: nothing is sent without a
      signed-in user and a selected car. */
  function SubmitPayload(user: Option<Id>, selected: Option<RentalCar>, form: RentalForm): (r: Option<Payload>)
    ensures r.Some? <==> user.Some? && selected.Some?
    ensures r.Some? ==> r.value == Payload(user.value, selected.value.id, form.startDate, form.endDate, form.totalPrice)
  {
    if user.None? || selected.None? then None
    else Some(Payload(user.value, selected.value.id, form.startDate, form.endDate, form.totalPrice))
  }

  /** What the page holds between submissions. */
  datatype PageState = PageState(selected: Option<RentalCar>, form: RentalForm)

  /** `handleRentalSubmit`, after the request: a success deselects the car
      and empties the form; a failure, or no request at all, changes nothing. */
  function AfterSubmit(st: PageState, user: Option<Id>, succeeded: bool): (r: PageState)
    ensures (SubmitPayload(user, st.selected, st.form).Some? && succeeded) ==> r == PageState(None, EmptyForm)
    ensures !(SubmitPayload(user, st.selected, st.form).Some? && succeeded) ==> r == st
  {
    if SubmitPayload(user, st.selected, st.form).Some? && succeeded then PageState(None, EmptyForm) else st
  }

  /** How the route reads the posted body, with the same date parser. */
  function AsRequest(p: Payload, parse: string -> Option<int>): RentalRoutes.RentalBody {
    RentalRoutes.RentalBody(Some(p.renterId), Some(p.carId),
                            Some(RentalRoutes.DateInput(p.startDate, parse(p.startDate))),
                            Some(RentalRoutes.DateInput(p.endDate, parse(p.endDate))),
                            p.totalPrice)
  }

  /** Picking the same date twice yields a total of 0, which the route
      reports as a missing field rather than as an invalid range. */
  lemma SameDayIsReportedMissing(db: Db, user: Id, car: RentalCar, d: string, parse: string -> Option<int>)
    requires d != "" && parse(d).Some? && car.pricePerDay.Some?
    ensures var form := DateChange(DateChange(EmptyForm, StartField, d, Some(car), parse), EndField, d, Some(car), parse);
      var p := SubmitPayload(Some(user), Some(car), form).value;
      RentalRoutes.CreateRental(db, AsRequest(p, parse)).response == Response(400, "All fields are required", None)
  {
    var form := DateChange(DateChange(EmptyForm, StartField, d, Some(car), parse), EndField, d, Some(car), parse);
    TotalCountsStartedDays(car, d, d, parse, 0);
    assert form.totalPrice == Some(0);
  }

  /** A form with both dates chosen, start before end and a non-zero
      estimate passes the route's first two checks. */
  lemma FilledFormPassesFieldChecks(user: Id, car: RentalCar, form: RentalForm, parse: string -> Option<int>)
    requires form.startDate != "" && form.endDate != ""
    requires parse(form.startDate).Some? && parse(form.endDate).Some?
    requires parse(form.startDate).value < parse(form.endDate).value
    requires form.totalPrice.Some? && form.totalPrice.value != 0
    ensures var b := AsRequest(SubmitPayload(Some(user), Some(car), form).value, parse);
      RentalRoutes.FieldsPresent(b) && RentalRoutes.ValidRange(b)
  {
  }
}

=== FILE: review_routes.dfy ===
/** Review submission (`POST /api/review`).

    The route checks the required fields, then the rating range, then that
    the rental exists, then that the reviewer is the right party for the
    review type: the renter reviews the car, the owner reviews the renter.
    It does not look at the rental's status, nor at whether the reviewed
    party is the counterparty.  A review type outside the schema's
    enumeration passes these checks and is refused by `Review.create`, which
    the route's catch block turns into a 500. */
module ReviewRoutes {
  import opened Common
  import opened Models

  datatype ReviewBody = ReviewBody(
    reviewerId: Option<Id>, reviewedId: Option<Id>, carId: Option<Id>, rentalId: Option<Id>,
    rating: Option<int>, comment: Option<string>, reviewType: Option<string>)

  /** The first check: all of reviewer, reviewed party, rental, rating and
      type truthy, so a rating of 0 counts as missing. */
  predicate ReviewFieldsPresent(b: ReviewBody) {
    b.reviewerId.Some? && b.reviewedId.Some? && b.rentalId.Some? && TruthyNumber(b.rating)
    && TruthyText(b.reviewType)
  }

  /** `RentalRequest.findById`. */
  function RentalById(db: Db, id: Id): (r: Option<RentalRequest>)
    ensures r.Some? ==> r.value in db.rentals && r.value.id == id
    ensures r.None? <==> forall k :: 0 <= k < |db.rentals| ==> db.rentals[k].id != id
  {
    Find(db.rentals, (x: RentalRequest) => x.id == id)
  }

  /** The reviewer is the party allowed to write a review of this type: the
      renter for "car", the owner for "renter"; any other type is not
      checked here. */
  predicate RightParty(rental: RentalRequest, reviewer: Id, reviewType: string) {
    && (reviewType == "car" ==> reviewer == rental.renterId)
    && (reviewType == "renter" ==> reviewer == rental.ownerId)
  }

  /** Every check passes and the schema accepts the review. */
  predicate ReviewAccepted(db: Db, b: ReviewBody) {
    && ReviewFieldsPresent(b)
    && 1 <= b.rating.value <= 5
    && RentalById(db, b.rentalId.value).Some?
    && RightParty(RentalById(db, b.rentalId.value).value, b.reviewerId.value, b.reviewType.value)
    && ParseReviewType(b.reviewType.value).Some?
  }

  /** `POST /api/review`. */
  function SubmitReview(db: Db, b: ReviewBody): (r: Reply<Review>)
    ensures !ReviewFieldsPresent(b) ==> r == Refuse(db, 400, "Missing required fields.")
    ensures ReviewFieldsPresent(b) && !(1 <= b.rating.value <= 5) ==>
      r == Refuse(db, 400, "Rating must be between 1 and 5.")
    ensures (ReviewFieldsPresent(b) && 1 <= b.rating.value <= 5
             && forall k :: 0 <= k < |db.rentals| ==> db.rentals[k].id != b.rentalId.value) ==>
      r == Refuse(db, 404, "Rental not found.")
    ensures (ReviewFieldsPresent(b) && 1 <= b.rating.value <= 5 && RentalById(db, b.rentalId.value).Some?
             && b.reviewType.value == "car"
             && b.reviewerId.value != RentalById(db, b.rentalId.value).value.renterId) ==>
      r == Refuse(db, 403, "Only renters can review cars.")
    ensures (ReviewFieldsPresent(b) && 1 <= b.rating.value <= 5 && RentalById(db, b.rentalId.value).Some?
             && b.reviewType.value == "renter"
             && b.reviewerId.value != RentalById(db, b.rentalId.value).value.ownerId) ==>
      r == Refuse(db, 403, "Only owners can review renters.")
    ensures (ReviewFieldsPresent(b) && 1 <= b.rating.value <= 5 && RentalById(db, b.rentalId.value).Some?
             && ParseReviewType(b.reviewType.value).None?) ==>
      r == Refuse(db, 500, "Error adding review.")
    ensures r.response.status == 201 <==> ReviewAccepted(db, b)
    ensures r.response.status == 201 ==>
      && r.response.message == "Review added successfully"
      && r.response.body.Some?
      && var rev := r.response.body.value;
      && rev.id == db.nextId && rev.reviewerId == b.reviewerId.value
      && rev.reviewedId == b.reviewedId.value && rev.carId == b.carId
      && rev.rentalId == b.rentalId.value && rev.rating == b.rating.value
      && rev.comment == b.comment && ReviewTypeName(rev.reviewType) == b.reviewType.value
      && r.db == db.(reviews := db.reviews + [rev], nextId := db.nextId + 1)
  {
    if !ReviewFieldsPresent(b) then Refuse(db, 400, "Missing required fields.")
    else if b.rating.value < 1 || b.rating.value > 5 then Refuse(db, 400, "Rating must be between 1 and 5.")
    else
      match RentalById(db, b.rentalId.value)
      case None => Refuse(db, 404, "Rental not found.")
      case Some(rental) =>
        if b.reviewType.value == "car" && b.reviewerId.value != rental.renterId then
          Refuse(db, 403, "Only renters can review cars.")
        else if b.reviewType.value == "renter" && b.reviewerId.value != rental.ownerId then
          Refuse(db, 403, "Only owners can review renters.")
        else
          var doc := ReviewDoc(b.reviewerId, b.reviewedId, b.carId, b.rentalId, b.rating, b.comment, b.reviewType);
          match NewReview(db.nextId, doc)
          case None => Refuse(db, 500, "Error adding review.")
          case Some(rev) =>
            Reply(Response(201, "Review added successfully", Some(rev)),
                  db.(reviews := db.reviews + [rev], nextId := db.nextId + 1))
  }

  /** Every stored review was written by the party its type allows: a car
      review by the rental's renter, a renter review by its owner. */
  lemma StoredReviewHasRightAuthor(db: Db, b: ReviewBody)
    requires SubmitReview(db, b).response.status == 201
    ensures var rev := SubmitReview(db, b).response.body.value;
      exists k :: 0 <= k < |db.rentals| && db.rentals[k].id == rev.rentalId
        && (rev.reviewType == CarReview ==> rev.reviewerId == db.rentals[k].renterId)
        && (rev.reviewType == RenterReview ==> rev.reviewerId == db.rentals[k].ownerId)
  {
    var rev := SubmitReview(db, b).response.body.value;
    var rental := RentalById(db, b.rentalId.value).value;
    var k :| 0 <= k < |db.rentals| && db.rentals[k] == rental;
    assert ReviewTypeName(rev.reviewType) == b.reviewType.value;
  }

  /** Neither the rental's status nor the reviewed party is checked: the
      renter of a still-pending rental may review anyone, here the renter
      themself. */
  lemma PendingRentalMayBeReviewed()
    ensures
      var rental := RentalRequest(5, 1, 2, 3, 10, 20, 100, Pending);
      var db := Db([], [], [], [rental], [], [], 9);
      SubmitReview(db, ReviewBody(Some(1), Some(1), None, Some(5), Some(4), None, Some("car"))).response.status == 201
  {
  }

  /** A rating of 0 is reported as a missing field, 6 as out of range. */
  lemma RatingEdges(db: Db)
    ensures SubmitReview(db, ReviewBody(Some(1), Some(3), None, Some(5), Some(0), None, Some("car"))).response
            == Response(400, "Missing required fields.", None)
    ensures SubmitReview(db, ReviewBody(Some(1), Some(3), None, Some(5), Some(6), None, Some("car"))).response
            == Response(400, "Rating must be between 1 and 5.", None)
  {
  }
}

=== FILE: signup_page.dfy ===
/** The sign-up page: the form for a user or a brand account, the flags that
    mark its fields, the checks made on submission, the request it sends,
    the handling of the server's duplicate-key replies, and the brand logo
    check.

    The page is modelled for one kind of account at a time: the form holds
    all six texts, a phone number is asked for only from a user and a logo
    only from a brand, and switching between the two kinds is not modelled. */
module SignupPage {
  import opened Common
  import Models
  import AccountRoutes

  datatype Field = NameField | EmailField | PhoneField | PasswordField | ReenterField | LogoField

  datatype SignupForm = SignupForm(name: string, email: string, phoneNumber: string, logo: string,
                                   password: string, reenterPassword: string)

  /** The page's flags.  `isName` … `isReenter` are false while the field is
      marked as missing; `isLogo` is `None` until a logo was first checked. */
  datatype Flags = Flags(
    triggered: bool, samePasswords: bool,
    isName: bool, isEmail: bool, isPhone: bool, isLogo: Option<bool>, logoError: string,
    isPassword: bool, isReenter: bool,
    existingEmail: bool, existingPhone: bool)

  datatype PageState = PageState(isUser: bool, form: SignupForm, flags: Flags)

  const InitialFlags: Flags :=
    Flags(false, true, true, true, true, None, "Please provide a logo.", true, true, false, false)

  const InitialPage: PageState := PageState(true, SignupForm("", "", "", "", "", ""), InitialFlags)

  function Text(form: SignupForm, f: Field): string {
    match f
    case NameField => form.name
    case EmailField => form.email
    case PhoneField => form.phoneNumber
    case LogoField => form.logo
    case PasswordField => form.password
    case ReenterField => form.reenterPassword
  }

  /** The fields an account of the kind needs: all but the logo for a user,
      all but the phone number for a brand. */
  predicate Required(f: Field, isUser: bool) {
    match f
    case PhoneField => isUser
    case LogoField => !isUser
    case _ => true
  }

  /** The guard of the submit handler: some needed field is empty. */
  predicate Blocked(form: SignupForm, isUser: bool) {
    || form.name == "" || form.email == "" || form.password == "" || form.reenterPassword == ""
    || (!isUser && form.logo == "") || (isUser && form.phoneNumber == "")
  }

  /** The guard is exactly "some required field is empty". */
  lemma BlockedMeansRequiredEmpty(form: SignupForm, isUser: bool)
    ensures Blocked(form, isUser) <==> exists f: Field :: Required(f, isUser) && Text(form, f) == ""
  {
    if Blocked(form, isUser) {
      var f := if form.name == "" then NameField else if form.email == "" then EmailField
               else if form.password == "" then PasswordField else if form.reenterPassword == "" then ReenterField
               else if isUser then PhoneField else LogoField;
      assert Required(f, isUser) && Text(form, f) == "";
    }
  }

  /** The order in which the fields are checked for emptiness. */
  function Rank(f: Field): nat {
    match f
    case NameField => 0
    case EmailField => 1
    case PhoneField => 2
    case PasswordField => 3
    case ReenterField => 4
    case LogoField => 5
  }

  /** The field the submit handler marks, as written: the first empty one in
      the order name, email, phone number, password, re-entered password,
      logo, whatever the kind of account. */
  function MissingFieldAsWritten(form: SignupForm): Option<Field> {
    if form.name == "" then Some(NameField)
    else if form.email == "" then Some(EmailField)
    else if form.phoneNumber == "" then Some(PhoneField)
    else if form.password == "" then Some(PasswordField)
    else if form.reenterPassword == "" then Some(ReenterField)
    else if form.logo == "" then Some(LogoField)
    else None
  }

  /** A brand's form has no phone input, so its phone number stays empty;
      with the name and email filled in and the password left empty, the
      handler marks the phone number, a field the brand cannot see or fill. */
  lemma MissingFieldAsWrittenMarksHiddenPhone()
    ensures var form := SignupForm("Motors", "m@x.pk", "", "", "", "");
      && Blocked(form, false)
      && MissingFieldAsWritten(form) == Some(PhoneField)
      && !Required(PhoneField, false)
  {
  }

  /** The field to mark: the first empty field in the same order among those
      the kind of account needs. */
  function MissingField(form: SignupForm, isUser: bool): (r: Option<Field>)
    ensures r.Some? <==> Blocked(form, isUser)
    ensures r.Some? ==> Required(r.value, isUser) && Text(form, r.value) == ""
    ensures r.Some? ==> forall g: Field :: Rank(g) < Rank(r.value) && Required(g, isUser) ==> Text(form, g) != ""
  {
    if form.name == "" then Some(NameField)
    else if form.email == "" then Some(EmailField)
    else if isUser && form.phoneNumber == "" then Some(PhoneField)
    else if form.password == "" then Some(PasswordField)
    else if form.reenterPassword == "" then Some(ReenterField)
    else if !isUser && form.logo == "" then Some(LogoField)
    else None
  }

  /** For a user the two agree; for a brand they differ only where the
      phone number is empty and something else is missing. */
  lemma MissingFieldAgreement(form: SignupForm, isUser: bool)
    requires Blocked(form, isUser)
    ensures isUser ==> MissingField(form, isUser) == MissingFieldAsWritten(form)
    ensures !isUser && form.phoneNumber != "" ==> MissingField(form, isUser) == MissingFieldAsWritten(form)
  {
  }

  /** Marks one field as missing; a missing logo also resets its message. */
  function Mark(fl: Flags, f: Field): (r: Flags)
    ensures r.triggered == fl.triggered && r.samePasswords == fl.samePasswords
    ensures r.existingEmail == fl.existingEmail && r.existingPhone == fl.existingPhone
  {
    match f
    case NameField => fl.(isName := false)
    case EmailField => fl.(isEmail := false)
    case PhoneField => fl.(isPhone := false)
    case PasswordField => fl.(isPassword := false)
    case ReenterField => fl.(isReenter := false)
    case LogoField => fl.(isLogo := Some(false), logoError := "Please provide a logo.")
  }

  /** Whether the field reads as marked missing. */
  predicate Marked(fl: Flags, f: Field) {
    match f
    case NameField => !fl.isName
    case EmailField => !fl.isEmail
    case PhoneField => !fl.isPhone
    case PasswordField => !fl.isPassword
    case ReenterField => !fl.isReenter
    case LogoField => fl.isLogo == Some(false)
  }

  /** Marking sets exactly the one field's mark. */
  lemma MarkMarksOnlyThat(fl: Flags, f: Field, g: Field)
    ensures Marked(Mark(fl, f), f)
    ensures g != f ==> (Marked(Mark(fl, f), g) <==> Marked(fl, g))
  {
  }

  /** The submit button is disabled while any of these flags is raised; the
      logo is not among them. */
  predicate SubmitDisabled(fl: Flags) {
    !fl.samePasswords || !fl.isName || !fl.isEmail || !fl.isPhone || !fl.isPassword || !fl.isReenter
    || fl.existingEmail || fl.existingPhone
  }

  /** The body posted: a user's without the logo, a brand's without the phone
      number. */
  datatype Payload = Payload(name: string, email: string, phoneNumber: Option<string>, logo: Option<string>,
                             password: string, reenterPassword: string)

  datatype Request = Request(url: string, body: Payload)

  /** `/api/${endpoint}/auth/signup` with the endpoint "/users" or "/brands":
      the path carries a doubled slash. */
  function SignupUrl(isUser: bool): (u: string)
    ensures u == "/api//" + (if isUser then "users" else "brands") + "/auth/signup"
  {
    "/api/" + ("/" + (if isUser then "users" else "brands")) + "/auth/signup"
  }

  function PayloadOf(form: SignupForm, isUser: bool): (p: Payload)
    ensures p.phoneNumber.Some? <==> isUser
    ensures p.logo.Some? <==> !isUser
    ensures p.name == form.name && p.email == form.email
    ensures p.password == form.password && p.reenterPassword == form.reenterPassword
    ensures isUser ==> p.phoneNumber == Some(form.phoneNumber)
    ensures !isUser ==> p.logo == Some(form.logo)
  {
    if isUser then Payload(form.name, form.email, Some(form.phoneNumber), None, form.password, form.reenterPassword)
    else Payload(form.name, form.email, None, Some(form.logo), form.password, form.reenterPassword)
  }

  /** The rest of `handleFormSubmit` once no field is missing: mark the
      passwords as different and stop, or send the form. */
  function CheckPasswords(st: PageState, fl: Flags): (r: (PageState, Option<Request>))
    ensures r.0.isUser == st.isUser && r.0.form == st.form
    ensures r.1.Some? <==> st.form.password == st.form.reenterPassword
    ensures r.1.None? ==> r.0.flags == fl.(samePasswords := false)
    ensures r.1.Some? ==> r.0.flags == fl && r.1.value == Request(SignupUrl(st.isUser), PayloadOf(st.form, st.isUser))
  {
    if st.form.password != st.form.reenterPassword then (st.(flags := fl.(samePasswords := false)), None)
    else (st.(flags := fl), Some(Request(SignupUrl(st.isUser), PayloadOf(st.form, st.isUser))))
  }

  /** `handleFormSubmit` up to the request, as written: a blocked form marks
      the field the written cascade picks and stops; otherwise a password
      mismatch is marked, or the form is sent. */
  function Submit(st: PageState): (r: (PageState, Option<Request>))
    ensures r.0.isUser == st.isUser && r.0.form == st.form && r.0.flags.triggered
    ensures r.1.Some? <==> !Blocked(st.form, st.isUser) && st.form.password == st.form.reenterPassword
    ensures Blocked(st.form, st.isUser) ==>
      && MissingFieldAsWritten(st.form).Some?
      && r.0.flags == Mark(st.flags.(triggered := true), MissingFieldAsWritten(st.form).value)
    ensures !Blocked(st.form, st.isUser) && st.form.password != st.form.reenterPassword ==>
      r.0.flags == st.flags.(triggered := true, samePasswords := false)
    ensures r.1.Some? ==>
      r.0.flags == st.flags.(triggered := true)
      && r.1.value == Request(SignupUrl(st.isUser), PayloadOf(st.form, st.isUser))
  {
    var fl := st.flags.(triggered := true);
    if Blocked(st.form, st.isUser) then (st.(flags := Mark(fl, MissingFieldAsWritten(st.form).value)), None)
    else CheckPasswords(st, fl)
  }

  /** The submit handler with the corrected cascade: it differs from the
      written one only in the field a blocked form marks. */
  function SubmitCorrected(st: PageState): (r: (PageState, Option<Request>))
    ensures r.1 == Submit(st).1
    ensures !Blocked(st.form, st.isUser) ==> r == Submit(st)
    ensures Blocked(st.form, st.isUser) ==>
      r.0 == st.(flags := Mark(st.flags.(triggered := true), MissingField(st.form, st.isUser).value))
  {
    var fl := st.flags.(triggered := true);
    match MissingField(st.form, st.isUser)
    case Some(f) => (st.(flags := Mark(fl, f)), None)
    case None => CheckPasswords(st, fl)
  }

  /** A sent form has every needed field and matching passwords; the posted
      body carries only what the kind of account needs. */
  lemma SentFormIsComplete(st: PageState)
    requires Submit(st).1.Some?
    ensures forall f: Field :: Required(f, st.isUser) ==> Text(st.form, f) != ""
    ensures st.form.password == st.form.reenterPassword
  {
    BlockedMeansRequiredEmpty(st.form, st.isUser);
  }

  /** The form with the text of `f` replaced. */
  function WithText(form: SignupForm, f: Field, value: string): (r: SignupForm)
    ensures Text(r, f) == value
    ensures forall g: Field :: g != f ==> Text(r, g) == Text(form, g)
  {
    match f
    case NameField => form.(name := value)
    case EmailField => form.(email := value)
    case PhoneField => form.(phoneNumber := value)
    case LogoField => form.(logo := value)
    case PasswordField => form.(password := value)
    case ReenterField => form.(reenterPassword := value)
  }

  /** Clears the missing mark of a typed-in field; the logo's mark is not
      touched by typing. */
  function Unmark(fl: Flags, f: Field): (r: Flags)
    ensures f != LogoField ==> !Marked(r, f)
    ensures forall g: Field :: g != f ==> (Marked(r, g) <==> Marked(fl, g))
    ensures r.triggered == fl.triggered && r.samePasswords == fl.samePasswords
    ensures r.isLogo == fl.isLogo && r.logoError == fl.logoError
  {
    match f
    case NameField => fl.(isName := true)
    case EmailField => fl.(isEmail := true)
    case PhoneField => fl.(isPhone := true)
    case PasswordField => fl.(isPassword := true)
    case ReenterField => fl.(isReenter := true)
    case LogoField => fl
  }

  /** The flags after typing in `f`: its mark cleared, the password match
      set to `same`, and both duplicate flags lowered. */
  function Retyped(fl: Flags, f: Field, same: bool): (r: Flags)
    ensures f != LogoField ==> !Marked(r, f)
    ensures forall g: Field :: g != f ==> (Marked(r, g) <==> Marked(fl, g))
    ensures !r.existingEmail && !r.existingPhone && r.samePasswords == same && r.triggered == fl.triggered
    ensures r.isLogo == fl.isLogo && r.logoError == fl.logoError
  {
    var u := Unmark(fl, f);
    var r := u.(samePasswords := same, existingEmail := false, existingPhone := false);
    assert forall g: Field :: Marked(r, g) == Marked(u, g);
    r
  }

  /** `handleInputChange` for the input named `f`. */
  function InputChange(st: PageState, f: Field, value: string): (r: PageState)
    ensures Text(r.form, f) == value
    ensures forall g: Field :: g != f ==> Text(r.form, g) == Text(st.form, g)
    ensures f != LogoField ==> !Marked(r.flags, f)
    ensures forall g: Field :: g != f ==> (Marked(r.flags, g) <==> Marked(st.flags, g))
    ensures !r.flags.existingEmail && !r.flags.existingPhone
    ensures st.flags.triggered && f == PasswordField ==> r.flags.samePasswords == (value == st.form.reenterPassword)
    ensures st.flags.triggered && f == ReenterField ==> r.flags.samePasswords == (st.form.password == value)
    ensures !(st.flags.triggered && (f == PasswordField || f == ReenterField)) ==>
      r.flags.samePasswords == st.flags.samePasswords
    ensures r.isUser == st.isUser
    ensures r.flags.isLogo == st.flags.isLogo && r.flags.logoError == st.flags.logoError
  {
    var same :=
      if st.flags.triggered && f == PasswordField then value == st.form.reenterPassword
      else if st.flags.triggered && f == ReenterField then st.form.password == value
      else st.flags.samePasswords;
    var fl' := Retyped(st.flags, f, same);
    PageState(st.isUser, WithText(st.form, f, value), fl')
  }

  /** The inputs a page of the kind renders for typing: a brand's has no
      phone number, and the logo comes from its upload instead. */
  predicate Rendered(f: Field, isUser: bool) {
    f != LogoField && (f != PhoneField || isUser)
  }

  /** Corrected, a mark is always on an input the page renders, and typing in
      it clears the mark. */
  lemma MarkedFieldCanBeCleared(st: PageState, value: string)
    requires Blocked(st.form, st.isUser)
    ensures var f := MissingField(st.form, st.isUser).value;
      f == LogoField || (Rendered(f, st.isUser) && !Marked(InputChange(SubmitCorrected(st).0, f, value).flags, f))
  {
  }

  /** As written, while the page stays on the brand form, a brand whose
      phone number was marked cannot send it: no input it renders clears the
      mark, so the button stays disabled whatever is typed. */
  lemma BrandStuckAfterPhoneMark(st: PageState, f: Field, value: string)
    requires !st.isUser && Marked(st.flags, PhoneField) && Rendered(f, st.isUser)
    ensures Marked(InputChange(st, f, value).flags, PhoneField)
    ensures SubmitDisabled(InputChange(st, f, value).flags)
  {
  }

  /** As written, submitting a brand form that has only a name and an email
      marks the hidden phone number, sends nothing, and leaves the button
      disabled whatever is then typed into the brand's inputs, as long as the
      page stays on the brand form. */
  lemma BrandFormStuckAfterSubmit(flags: Flags, f: Field, value: string)
    requires Rendered(f, false)
    ensures var st := PageState(false, SignupForm("Motors", "m@x.pk", "", "", "", ""), flags);
      && Submit(st).1.None?
      && Marked(Submit(st).0.flags, PhoneField)
      && SubmitDisabled(InputChange(Submit(st).0, f, value).flags)
  {
    var st := PageState(false, SignupForm("Motors", "m@x.pk", "", "", "", ""), flags);
    MissingFieldAsWrittenMarksHiddenPhone();
    MarkMarksOnlyThat(flags.(triggered := true), PhoneField, PhoneField);
    BrandStuckAfterPhoneMark(Submit(st).0, f, value);
  }

  /** The server's reply to a failed sign-up: its message picks the flag. */
  function ServerRefusal(st: PageState, message: string): (r: PageState)
    ensures r.flags.existingEmail == (st.flags.existingEmail || message == "Existing email.")
    ensures r.flags.existingPhone == (st.flags.existingPhone || (message != "Existing email." && message == "Existing phone number."))
    ensures r.form == st.form && r.isUser == st.isUser
  {
    if message == "Existing email." then st.(flags := st.flags.(existingEmail := true))
    else if message == "Existing phone number." then st.(flags := st.flags.(existingPhone := true))
    else st
  }

  /** The user sign-up route's conflict reply raises the flag of the field it
      names, and the button stays disabled until the next keystroke. */
  lemma ConflictRaisesNamedFlag(st: PageState, db: Models.Db, b: AccountRoutes.UserSignupBody, hash: string -> string)
    requires !AccountRoutes.UserSignupBlank(b)
    requires AccountRoutes.DuplicateUser(db.users, b.email.value, b.phoneNumber.value).Some?
    ensures AccountRoutes.UserSignup(db, b, hash).response.status == 409
    ensures var m := AccountRoutes.UserSignup(db, b, hash).response.message;
      var r := ServerRefusal(st, m);
      && (m == "Existing email." ==> r.flags.existingEmail)
      && (m != "Existing email." ==> m == "Existing phone number." && r.flags.existingPhone)
      && SubmitDisabled(r.flags)
  {
    var u := AccountRoutes.DuplicateUser(db.users, b.email.value, b.phoneNumber.value).value;
    var field := AccountRoutes.ExistingFieldAsWritten(b.email.value, u);
    assert field == "email" || field == "phone number";
  }

  // ---------------------------------------------------------------------------
  // The logo

  /** How the upload of an accepted logo ended. */
  datatype Upload = Uploaded(fileUrl: string) | NotUploaded | UploadFailed

  /** `handleLogoInput`: `mime` is the file's type, `size` the decoded image's
      width and height (`None` when it cannot be decoded). */
  function LogoInput(st: PageState, mime: string, size: Option<(int, int)>, upload: Upload): (r: PageState)
    ensures r.flags.isLogo == Some(true) <==>
      (Contains(mime, "image/webp") && size == Some((1080, 1080)) && upload.Uploaded?) || (st.flags.isLogo == Some(true) && Contains(mime, "image/webp") && size.None?)
    ensures Contains(mime, "image/webp") && size == Some((1080, 1080)) && upload.Uploaded? ==>
      r.form == st.form.(logo := upload.fileUrl)
    ensures !Contains(mime, "image/webp") ==> r == st.(flags := st.flags.(isLogo := Some(false), logoError := "Please upload a WebP image file."))
    ensures Contains(mime, "image/webp") && size.Some? && size != Some((1080, 1080)) ==>
      r == st.(flags := st.flags.(isLogo := Some(false), logoError := "Image dimensions must be 1080 x 1080 pixels."))
    ensures r.isUser == st.isUser
  {
    if !Contains(mime, "image/webp") then
      st.(flags := st.flags.(isLogo := Some(false), logoError := "Please upload a WebP image file."))
    else
      match size
      case None => st
      case Some((w, h)) =>
        if w != 1080 || h != 1080 then
          st.(flags := st.flags.(isLogo := Some(false), logoError := "Image dimensions must be 1080 x 1080 pixels."))
        else
          match upload
          case Uploaded(url) => st.(form := st.form.(logo := url), flags := st.flags.(isLogo := Some(true)))
          case NotUploaded => st.(flags := st.flags.(isLogo := Some(false), logoError := "Failed to upload the logo."))
          case UploadFailed => st.(flags := st.flags.(isLogo := Some(false), logoError := "There was an error uploading your logo."))
  }

  /** The type test is a substring test: a type that merely mentions
      "image/webp" passes it. */
  lemma WebpTestIsSubstring()
    ensures Contains("x-image/webp2", "image/webp")
  {
    assert OccursAt("x-image/webp2", "image/webp", 2);
  }
}

=== FILE: used_cars_page.dfy ===
/** The used-cars page: reading numbers out of free-text prices and
    mileages, the search filters, the three sort orders, and the detail
    view's image carousel. */
module UsedCarsPage {
  import opened Common
  import opened Models

  // ---------------------------------------------------------------------------
  // Digits and numbers

  predicate IsDigit(c: char) {
    '0' <= c <= '9'
  }

  predicate AllDigits(s: string) {
    forall k :: 0 <= k < |s| ==> IsDigit(s[k])
  }

  function DigitValue(c: char): nat
    requires IsDigit(c)
  {
    c as int - '0' as int
  }

  function DigitChar(d: nat): (c: char)
    requires d < 10
    ensures IsDigit(c) && DigitValue(c) == d
  {
    ('0' as int + d) as char
  }

  /** The number a string of decimal digits denotes; 0 for no digits. */
  function DigitsValue(s: string): nat
    requires AllDigits(s)
    decreases |s|
  {
    if |s| == 0 then 0 else DigitsValue(s[..|s| - 1]) * 10 + DigitValue(s[|s| - 1])
  }

  function Pow10(n: nat): (r: nat)
    ensures r >= 1
  {
    if n == 0 then 1 else 10 * Pow10(n - 1)
  }

  /** Reading two digit strings one after the other: the first is shifted by
      as many places as the second has digits. */
  lemma {:induction false} DigitsValueConcat(a: string, b: string)
    requires AllDigits(a) && AllDigits(b)
    ensures AllDigits(a + b)
    ensures DigitsValue(a + b) == DigitsValue(a) * Pow10(|b|) + DigitsValue(b)
    decreases |b|
  {
    var ab := a + b;
    assert AllDigits(ab) by {
      forall k | 0 <= k < |ab| ensures IsDigit(ab[k]) {
        if k < |a| { assert ab[k] == a[k]; } else { assert ab[k] == b[k - |a|]; }
      }
    }
    if |b| > 0 {
      var b' := b[..|b| - 1];
      assert ab[..|ab| - 1] == a + b';
      assert ab[|ab| - 1] == b[|b| - 1];
      DigitsValueConcat(a, b');
      var x, p, y, d := DigitsValue(a), Pow10(|b'|), DigitsValue(b'), DigitValue(b[|b| - 1]);
      assert DigitsValue(ab) == (x * p + y) * 10 + d;
      assert DigitsValue(b) == y * 10 + d;
      assert Pow10(|b|) == 10 * p;
      ShiftArithmetic(x, p, y, d);
    } else {
      assert ab == a;
    }
  }

  lemma ShiftArithmetic(x: int, p: int, y: int, d: int)
    ensures (x * p + y) * 10 + d == x * (10 * p) + (y * 10 + d)
  {
  }

  /** `str.replace(/[^0-9]/g, "")`: the digits of `s`, in order. */
  function KeepDigits(s: string): (r: string)
    ensures AllDigits(r) && |r| <= |s|
    ensures IsSubsequence(r, s)
    ensures forall k :: 0 <= k < |s| && IsDigit(s[k]) ==> s[k] in r
    ensures forall k :: 0 <= k < |r| ==> r[k] in s
    decreases |s|
  {
    Filter(s, IsDigit)
  }

  /** Keeping the digits of a concatenation keeps those of each part. */
  lemma {:induction false} KeepDigitsConcat(a: string, b: string)
    ensures KeepDigits(a + b) == KeepDigits(a) + KeepDigits(b)
    decreases |a|
  {
    if |a| > 0 {
      assert (a + b)[0] == a[0];
      assert (a + b)[1..] == a[1..] + b;
      KeepDigitsConcat(a[1..], b);
    } else {
      assert a + b == b;
    }
  }

  /** `parseNumber`: the digits of the text read as one decimal number, 0
      when there are none.  It is never negative. */
  function ParseNumber(s: string): (r: nat)
    ensures AllDigits(s) ==> r == DigitsValue(s)
    ensures (forall k :: 0 <= k < |s| ==> !IsDigit(s[k])) ==> r == 0
  {
    if AllDigits(s) then
      FilterKeepsAll(s, IsDigit);
      DigitsValue(KeepDigits(s))
    else
      DigitsValue(KeepDigits(s))
  }

  /** A text of digits alone reads as the number it spells. */
  lemma ParseNumberOfDigits(s: string)
    requires AllDigits(s)
    ensures ParseNumber(s) == DigitsValue(s)
  {
    FilterKeepsAll(s, IsDigit);
  }

  /** The digits kept from "1.5". */
  lemma KeepDigitsOfDecimal()
    ensures KeepDigits("1.5") == "15"
  {
    assert "1.5"[1..] == ".5" && ".5"[1..] == "5";
  }

  /** A decimal point is dropped rather than honoured, and empty text reads
      as 0. */
  lemma ParseNumberExamples()
    ensures ParseNumber("1.5") == 15
    ensures ParseNumber("") == 0
  {
    KeepDigitsOfDecimal();
    assert "15"[..1] == "1" && ""[..0] == "";
    assert DigitsValue("1") == 1;
  }

  /** `parseNumber` of a concatenation: the digits of the first part are
      shifted by the number of digits in the second.  So separators such as
      "," and "." are simply dropped: "1.5" reads as 15. */
  lemma ParseNumberConcat(a: string, b: string)
    ensures ParseNumber(a + b) == ParseNumber(a) * Pow10(|KeepDigits(b)|) + ParseNumber(b)
  {
    KeepDigitsConcat(a, b);
    DigitsValueConcat(KeepDigits(a), KeepDigits(b));
  }

  /** The decimal text of a natural number, without leading zeros. */
  function DecimalText(n: nat): (s: string)
    ensures AllDigits(s) && |s| > 0
    ensures DigitsValue(s) == n
  {
    if n < 10 then [DigitChar(n)]
    else
      var s := DecimalText(n / 10) + [DigitChar(n % 10)];
      assert s[..|s| - 1] == DecimalText(n / 10);
      s
  }

  /** The longest prefix of `s` made of digits. */
  function DigitPrefix(s: string): (r: string)
    ensures AllDigits(r) && |r| <= |s| && r == s[..|r|]
    ensures |r| < |s| ==> !IsDigit(s[|r|])
    decreases |s|
  {
    if |s| > 0 && IsDigit(s[0]) then [s[0]] + DigitPrefix(s[1..]) else ""
  }

  /** `parseInt(text)` in base 10: leading white space, an optional sign, then
      the longest run of digits; `None` (NaN) when there are no digits. */
  function ParseInt(s: string): (r: Option<int>)
    ensures r.None? <==> |DigitPrefix(Unsigned(TrimStart(s)))| == 0
  {
    var t := TrimStart(s);
    var d := DigitPrefix(Unsigned(t));
    if |d| == 0 then None
    else if |t| > 0 && t[0] == '-' then Some(0 - DigitsValue(d) as int)
    else Some(DigitsValue(d))
  }

  /** The text after an optional leading sign. */
  function Unsigned(t: string): string {
    if |t| > 0 && (t[0] == '-' || t[0] == '+') then t[1..] else t
  }

  /** Typing a year as its decimal text reads it back. */
  lemma ParseIntDecimal(n: nat)
    ensures ParseInt(DecimalText(n)) == Some(n)
  {
    var s := DecimalText(n);
    assert !IsSpace(s[0]) && s[0] != '-' && s[0] != '+';
    assert TrimStart(s) == s;
    assert Unsigned(s) == s;
    DigitPrefixAllDigits(s);
  }

  lemma {:induction false} DigitPrefixAllDigits(s: string)
    requires AllDigits(s)
    ensures DigitPrefix(s) == s
    decreases |s|
  {
    if |s| > 0 {
      DigitPrefixAllDigits(s[1..]);
      assert [s[0]] + s[1..] == s;
    }
  }

  // ---------------------------------------------------------------------------
  // Filters

  datatype Filters = Filters(city: string, modelYear: string, mileage: string, name: string)

  const NoFilters: Filters := Filters("", "", "", "")

  /** One car passes the filters: each of city and name is empty or a
      case-insensitive substring, and the model year is empty or equal to
      the year typed.  The mileage filter is not consulted. */
  predicate Keep(car: Ad, f: Filters) {
    && (f.city == "" || Contains(Lower(car.city), Lower(f.city)))
    && (f.modelYear == "" || ParseInt(f.modelYear) == Some(car.modelYear))
    && (f.name == "" || Contains(Lower(car.name), Lower(f.name)))
  }

  /** `filteredCars`: the cars that pass, in their original order. */
  function FilteredCars(cars: seq<Ad>, f: Filters): (r: seq<Ad>)
    ensures IsSubsequence(r, cars)
    ensures forall k :: 0 <= k < |r| ==> r[k] in cars && Keep(r[k], f)
    ensures forall k :: 0 <= k < |cars| && Keep(cars[k], f) ==> cars[k] in r
    ensures forall car :: multiset(r)[car] == (if Keep(car, f) then multiset(cars)[car] else 0)
  {
    Filter(cars, Keeps(f))
  }

  /** `Keep` with the filters fixed, as the callback `filter` is given. */
  function Keeps(f: Filters): Ad -> bool {
    (car: Ad) => Keep(car, f)
  }

  /** With every filter empty, every car is shown. */
  lemma NoFiltersKeepAll(cars: seq<Ad>)
    ensures FilteredCars(cars, NoFilters) == cars
  {
    FilterKeepsAll(cars, Keeps(NoFilters));
  }

  /** The mileage filter has no effect. */
  lemma MileageFilterIgnored(cars: seq<Ad>, f: Filters, m: string)
    ensures FilteredCars(cars, f.(mileage := m)) == FilteredCars(cars, f)
  {
    assert forall car: Ad :: Keeps(f.(mileage := m))(car) == Keeps(f)(car);
    FilterExtensional(cars, Keeps(f.(mileage := m)), Keeps(f));
  }

  /** A year typed as its decimal text keeps exactly the cars of that year. */
  lemma YearFilterKeepsThatYear(car: Ad, y: nat)
    ensures Keep(car, NoFilters.(modelYear := DecimalText(y))) <==> car.modelYear == y
  {
    var f := NoFilters.(modelYear := DecimalText(y));
    assert f.city == "" && f.name == "" && f.modelYear != "";
    ParseIntDecimal(y);
  }

  // ---------------------------------------------------------------------------
  // Sorting

  predicate SortedBy<T>(xs: seq<T>, key: T -> int) {
    forall i, j :: 0 <= i < j < |xs| ==> key(xs[i]) <= key(xs[j])
  }

  /** Inserts `x` into a sorted list, before the first element whose key is
      not smaller, so that equal keys keep their order. */
  function Insert<T>(x: T, xs: seq<T>, key: T -> int): (r: seq<T>)
    requires SortedBy(xs, key)
    ensures SortedBy(r, key)
    ensures multiset(r) == multiset(xs) + multiset{x}
    ensures |r| == |xs| + 1
    decreases |xs|
  {
    if |xs| == 0 then [x]
    else if key(x) <= key(xs[0]) then [x] + xs
    else
      var rest := Insert(x, xs[1..], key);
      assert xs == [xs[0]] + xs[1..];
      InsertHead(xs[0], rest, xs[1..], x, key);
      [xs[0]] + rest
  }

  /** Putting `h` in front of a sorted list whose elements all come from
      `tail` or are `x` keeps it sorted, when `h` precedes both. */
  lemma InsertHead<T>(h: T, rest: seq<T>, tail: seq<T>, x: T, key: T -> int)
    requires SortedBy(rest, key) && SortedBy([h] + tail, key)
    requires multiset(rest) == multiset(tail) + multiset{x}
    requires key(h) < key(x)
    ensures SortedBy([h] + rest, key)
  {
    var r := [h] + rest;
    forall j | 1 <= j < |r|
      ensures key(h) <= key(r[j])
    {
      assert r[j] == rest[j - 1];
      assert rest[j - 1] in multiset(rest);
      if rest[j - 1] != x {
        assert rest[j - 1] in multiset(tail);
        var k :| 0 <= k < |tail| && tail[k] == rest[j - 1];
        assert ([h] + tail)[0] == h && ([h] + tail)[k + 1] == tail[k];
      }
    }
  }

  /** A stable insertion sort by `key`: `Array.prototype.sort` with the
      comparator `key(a) - key(b)`. */
  function SortBy<T>(xs: seq<T>, key: T -> int): (r: seq<T>)
    ensures SortedBy(r, key)
    ensures multiset(r) == multiset(xs)
    decreases |xs|
  {
    if |xs| == 0 then []
    else
      assert xs == [xs[0]] + xs[1..];
      Insert(xs[0], SortBy(xs[1..], key), key)
  }

  function PriceKey(car: Ad): int { ParseNumber(car.price) }
  function MileageKey(car: Ad): int { ParseNumber(car.mileage) }
  function YearKey(car: Ad): int { car.modelYear }

  /** The list shown: the filtered cars, sorted by the chosen key when it is
      one of "price", "mileage" and "modelYear", and in filter order for any
      other key. */
  function Shown(cars: seq<Ad>, f: Filters, sortKey: string): (r: seq<Ad>)
    ensures multiset(r) == multiset(FilteredCars(cars, f))
    ensures sortKey == "price" ==> SortedBy(r, PriceKey)
    ensures sortKey == "mileage" ==> SortedBy(r, MileageKey)
    ensures sortKey == "modelYear" ==> SortedBy(r, YearKey)
    ensures sortKey !in {"price", "mileage", "modelYear"} ==> r == FilteredCars(cars, f)
  {
    var filtered := FilteredCars(cars, f);
    if sortKey == "price" then SortBy(filtered, PriceKey)
    else if sortKey == "mileage" then SortBy(filtered, MileageKey)
    else if sortKey == "modelYear" then SortBy(filtered, YearKey)
    else filtered
  }

  /** Sorting shows exactly the cars that passed the filters, each as often. */
  lemma ShownAreFiltered(cars: seq<Ad>, f: Filters, sortKey: string, car: Ad)
    ensures car in Shown(cars, f, sortKey) <==> car in cars && Keep(car, f)
  {
    var r := Shown(cars, f, sortKey);
    var filtered := FilteredCars(cars, f);
    assert car in r <==> car in multiset(r);
    assert car in filtered <==> car in multiset(filtered);
    if car in cars && Keep(car, f) {
      var k :| 0 <= k < |cars| && cars[k] == car;
    }
    if car in filtered {
      var k :| 0 <= k < |filtered| && filtered[k] == car;
    }
  }

  // ---------------------------------------------------------------------------
  // The carousel

  /** The carousel shows four images. */
  const ImageCount: int := 4

  function NextImage(i: int): (r: int)
    requires 0 <= i < ImageCount
    ensures 0 <= r < ImageCount
  {
    (i + 1) % ImageCount
  }

  function PrevImage(i: int): (r: int)
    requires 0 <= i < ImageCount
    ensures 0 <= r < ImageCount
  {
    (i - 1 + ImageCount) % ImageCount
  }

  /** Stepping back undoes stepping forward, and the other way round; four
      steps forward come back to the start. */
  lemma CarouselRoundTrip(i: int)
    requires 0 <= i < ImageCount
    ensures PrevImage(NextImage(i)) == i && NextImage(PrevImage(i)) == i
    ensures NextImage(NextImage(NextImage(NextImage(i)))) == i
  {
  }
}
